=== FILE: README.md ===
# Data masking rule engine — a Dafny model

This project models the rule engine of the Data Masking & Anonymization Tool.

- **Rule store.** `masking_rules` is an insertion-ordered dictionary from field name to a rule `{type, options}`. The "Add Rule", "Remove Rule" and "Clear Rules" actions edit it.
- **Cell masking.** `mask_value` masks one cell under one rule. It has eleven strategies, plus passthroughs for missing values and for unknown rule types.
- **Reverse mapping.** `reverse_mapping` is the dictionary that the two encryption strategies fill with `masked text -> original text`, per field.
- **The masking pass.** `apply_masking` copies the loaded table and then applies each rule to its column, in rule order.
- **Demo helpers.** The stand-alone helpers of `test_demo.py` (`full_mask`, `partial_mask`, `email_mask`, `phone_mask`, `ssn_mask`, `hash_value`) are proved to compute the same results as the corresponding branches of `mask_value`, with digits read as ASCII digits.

Cells are modelled by their text form `str(value)`, as `Option<string>`, where `None` is a missing (NA) value. A table maps column names to sequences of cells.

Everything the code obtains from a library is a field of the `Externals.Oracle` record:

- Fernet key validation and encryption;
- URL-safe base64;
- the SHA-256 digest, as 32 opaque bytes; its hex rendering is modelled exactly;
- the Faker generators;
- date parsing and shifting;
- float parsing with random noise.

Randomness is a draw counter threaded through `Masking.MaskState`.

Modules, one per component: `Wrappers` (Option/Result), `PyStr` (Python string primitives with Python's slice rules), `Externals`, `ValueMasks` (the string strategies), `FakeData` (Faker category choice), `Rules` (strategy labels and the rule store), `ReverseStore`, `Masking` (`mask_value`), `Policy` (add/remove rule), `Engine` (`apply_masking`, `clear_rules`) and `Demo`.

## Model

| member | source | states |
|---|---|---|
| PyStr.SliceTo | data_masking_tool.py:465 | `s[:k]` is always a prefix of `s`, and for `0 <= k <= len(s)` it is the first `k` characters |
| PyStr.Repeat | data_masking_tool.py:458 | `c * n` is `n` copies of `c`, and the empty string when `n <= 0`, as Python gives for a zero or negative count (also lines 464-465 and 519-537) |
| PyStr.SliceFrom | data_masking_tool.py:465 | `s[k:]` with Python's negative-index rule: for `-len <= k < 0` it is the last `-k` characters, and `s[-0:]` is the whole string |
| PyStr.Lower | data_masking_tool.py:481 | ASCII lower-casing keeps the length and lower-cases each character in place |
| PyStr.ContainsIff | data_masking_tool.py:482-497 | the keyword test `kw in s` holds exactly when `kw` occurs somewhere in `s` as a contiguous run |
| PyStr.FirstIndex | data_masking_tool.py:517 | `split('@', 1)` splits at a position exactly when `'@'` occurs; that position holds `'@'` and no `'@'` comes before it |
| PyStr.Digits | data_masking_tool.py:527 | `re.sub(r'\D', '', s)` returns only digits and is never longer than `s` |
| PyStr.DigitsKeepsDigits | data_masking_tool.py:527 | every digit of `s` survives as often as it occurs in `s`, and no other character survives |
| ValueMasks.FullMask | data_masking_tool.py:457-458 | the result is all `'*'` and as long as `str(value)` |
| ValueMasks.PartialMask | data_masking_tool.py:460-466 | three cases: a value no longer than `keep_first + keep_last` becomes all stars; otherwise, with `keep_last >= 1`, the length is kept and each position keeps its character exactly when it lies in the first `keep_first` or last `keep_last`, else `'*'`; with `keep_last == 0` the whole value is appended after the starred prefix, so the length doubles |
| ValueMasks.EmailMask | data_masking_tool.py:515-523 | the length is kept; the first `'@'` and the domain after it are unchanged; a local part longer than 2 keeps its first and last characters with stars between, a shorter one is all stars; without `'@'` the result is all stars |
| ValueMasks.EmailMaskSplit | data_masking_tool.py:517-522 | for `local + "@" + domain` with no `'@'` in `local`, the result is the masked local part, then `"@"`, then `domain` unchanged |
| ValueMasks.PhoneMask | data_masking_tool.py:525-530 | the length is kept; with at least four digits, all but the last four characters are stars and the last four characters (digits or not) are kept; otherwise all stars |
| ValueMasks.PhoneExample | data_masking_tool.py:525-530 | `"555-123-4567"` masks to `"********4567"` |
| ValueMasks.SsnMask | data_masking_tool.py:532-537 | with at least four digits, exactly `"***-**-"` followed by the last four digits, 11 characters; otherwise all stars of the value's length |
| ValueMasks.HexDigest | data_masking_tool.py:502 | `hexdigest()` renders each byte as two characters, all from `0-9a-f` |
| ValueMasks.HexDigestInjective | data_masking_tool.py:502 | `hexdigest()` of equally long byte strings is injective |
| ValueMasks.HashMask | data_masking_tool.py:501-502 | `hexdigest()[:16]` is the lower-case hex of the digest's first eight bytes: 16 characters, all from `0-9a-f` |
| ValueMasks.HashMaskCollision | data_masking_tool.py:501-502 | two values hash-mask alike exactly when their digests agree in the first eight bytes |
| FakeData.FakeKindIsFirstMatch | data_masking_tool.py:479-499 | the generator is the one for the first keyword found in the lower-cased field name, in the priority order email, phone, name, address, ssn, company; a name field is narrowed to first or last name |
| FakeData.FakeKindFor | data_masking_tool.py:481-499 | the `email` keyword decides the e-mail generator in both directions, whatever else the name holds, and a first or last name is chosen only for a field whose name contains `name`; the full choice is stated by `FakeKindIsFirstMatch` |
| FakeData.FakeWordIffNoKeyword | data_masking_tool.py:479-499 | the generic word generator is used exactly when the lower-cased field name contains none of the six keywords |
| FakeData.FakeKindIgnoresCase | data_masking_tool.py:481 | the choice depends only on the lower-cased field name |
| Rules.StrategyOf | data_masking_tool.py:457-557 | a type string selects a strategy exactly when it is that strategy's label; a string that is no label selects none |
| Rules.LabelRoundTrip | data_masking_tool.py:457-557 | each label selects its own branch, so no branch of the dispatch shadows another |
| Rules.Get | data_masking_tool.py:391 | a lookup finds nothing exactly when the field has no entry, and otherwise returns a rule stored for it |
| Rules.GetAt | data_masking_tool.py:391 | in a store with no repeated field, a lookup returns the rule stored at that field's position |
| Rules.Put | data_masking_tool.py:377 | afterwards the field maps to the new rule and every other field to its old rule; the store grows by one only for a new field; existing entries keep their positions |
| Rules.PutFields | data_masking_tool.py:377 | overwriting keeps the field order; a new field is appended last |
| Rules.PutDistinct | data_masking_tool.py:377 | storing a rule never creates a repeated field |
| Rules.Delete | data_masking_tool.py:392 | afterwards the field has no rule, every other field keeps its rule, the surviving entries are exactly the old entries for other fields, and no field becomes repeated |
| Rules.DeleteAppend | data_masking_tool.py:392 | deletion works entry by entry, so surviving entries keep their relative order |
| Rules.FieldNotElsewhere | data_masking_tool.py:377 | in a store without repeated fields, an entry's field occurs neither before nor after it |
| ReverseStore.Record | data_masking_tool.py:472-476 | after recording, the field's map sends the masked text to the original; every other (field, text) lookup is unchanged; the field's inner map is created if absent |
| ReverseStore.RecordLastWriteWins | data_masking_tool.py:476 | recording the same masked text twice leaves only the second original |
| ReverseStore.RecordCommutes | data_masking_tool.py:476 | records of different (field, masked text) pairs commute |
| Masking.Encrypt | data_masking_tool.py:468-513 | the two encryption branches (lines 468-477 and 504-513): the Fernet constructor fails exactly on a malformed key, before anything is recorded; otherwise the output is the token, base64-encoded for the format-preserving type, the field's reverse mapping sends it back to the original text, no other lookup changes, and one draw is used |
| Masking.MaskValue | data_masking_tool.py:448-557 | a missing value and an unknown type are returned unchanged with no side effect; the only exception is a malformed key for an encryption type, raised exactly then; a present value stays present under every type except number randomization; non-encrypting types never touch the reverse mapping; types that neither encrypt nor draw touch no state |
| Masking.EncryptionRecordsReverse | data_masking_tool.py:468-513 | with a valid key, the output is the Fernet token (base64-encoded for the format-preserving type); the reverse mapping sends that output to the original text; no other lookup changes; one draw is consumed |
| Masking.PartialDefaults | data_masking_tool.py:461-462 | a partial-masking rule without options masks with `keep_first = 0` and `keep_last = 4` |
| Masking.StatelessIsPure | data_masking_tool.py:448-557 | for types that neither encrypt nor draw, the result depends only on the value and the rule, not on the field name or the state |
| Masking.FakeUsesFieldCategory | data_masking_tool.py:479-499 | fake-data replacement returns the value of the generator chosen from the field name, on the current draw, and consumes that draw |
| Masking.RandomizationResult | data_masking_tool.py:548-555 | number randomization of a value that parses as a float returns the noisy number on the current draw, which is a missing value when it is NaN, and uses that draw |
| Masking.ParseFailureKeepsValue | data_masking_tool.py:539-555 | when date parsing or float parsing fails, the value is returned unchanged |
| Masking.MissingKeyRaises | data_masking_tool.py:468-470 | an encryption rule without a key reads `options.get('key', '')`, so `Fernet(b'')` raises on any present value; the same holds for the reversible type at lines 504-506 |
| Policy.RuleFromForm | data_masking_tool.py:358-375 | the rule has the form's type and only the options that type reads: keep counts for partial masking, the key for the two encryption types, the day shift for date shifting |
| Policy.NewFields | data_masking_tool.py:356-377 | the fields a loop of `masking_rules[field] = rule` appends, in the order they were first selected, each once |
| Policy.NewFieldsMembers | data_masking_tool.py:356-377 | a field is appended exactly when it is selected and had no rule before |
| Policy.NewFieldsExample | data_masking_tool.py:356-377 | selecting `a, b, a` on an empty store appends `a, b`; selecting `a, b` when `b` has a rule appends only `a` |
| Policy.PutNewField | data_masking_tool.py:377 | storing one more selected field keeps the field order equal to the old fields followed by the new fields of the longer selection |
| Policy.AddStep | data_masking_tool.py:356-377 | one pass of the add loop keeps the loop invariant: selected fields so far have the rule, others keep theirs, and the field order is old fields then new fields |
| Policy.PutNext | data_masking_tool.py:356-377 | the add loop's body moves the invariant from the first `i` selected fields to the first `i + 1` |
| Policy.FormOptionsReachMask | data_masking_tool.py:359-373 | a rule built from the form carries the form's keep counts (partial), key (encryption types) or day shift (date shifting), and `mask_value` reads back exactly those |
| Policy.PutAll | data_masking_tool.py:356-377 | storing the rule for each selected field in turn gives every selected field that rule and every other field its old rule; old fields keep their order, and the new fields follow them in the order they were first selected; no field becomes repeated |
| Policy.AddMaskingRule | data_masking_tool.py:347-380 | an empty selection and an empty key for an encryption type are refused with the store unchanged; otherwise every selected field gets the form's rule, the others keep theirs, existing fields keep their positions, and the new fields follow in the order they were first selected |
| Policy.UnselectedExtend | data_masking_tool.py:388-392 | removing one more selected field is deleting that field from what the earlier removals left |
| Policy.DeleteAbsent | data_masking_tool.py:390 | skipping a field that has no rule is the same as deleting it: the store is unchanged |
| Policy.GetUnselected | data_masking_tool.py:388-392 | after removing the selected fields, a selected field has no rule and every other field keeps its rule |
| Policy.UnselectedDistinct | data_masking_tool.py:388-392 | removal keeps only old entries and creates no repeated field |
| Policy.RemoveStep | data_masking_tool.py:389-392 | one pass of the loop, deleting or skipping, removes exactly one more selected field |
| Policy.DeleteNext | data_masking_tool.py:389-392 | one pass of the loop leaves the entries of the fields not selected so far, in their old order |
| Policy.DeleteAll | data_masking_tool.py:388-392 | the `del` loop leaves exactly the entries of unselected fields, in their old order |
| Policy.RemoveMaskingRule | data_masking_tool.py:382-395 | an empty selection is refused with the store unchanged; otherwise the store keeps exactly the entries of unselected fields, in their old order; a selected field has no rule and every other field keeps its rule |
| Engine.MaskColumn | data_masking_tool.py:434-436 | missing cells stay missing; under every type except number randomization, present cells also stay present; the apply fails exactly when an encryption rule with a malformed key meets a present cell, and then fails before any state changes |
| Engine.MaskColumnStateless | data_masking_tool.py:434-436 | under a rule that neither encrypts nor draws, each output cell is `mask_value` of the cell in the same row |
| Engine.EncryptedColumnReversible | data_masking_tool.py:434-436 | with a valid key, each present cell's output maps back to that cell's original in the field's reverse mapping, unless a later row produced the same output; other fields and other texts are untouched |
| Engine.MaskColumnDraws | data_masking_tool.py:434-436 | when each cell masks on the current draw and consumes it under a fixed condition, the column's row `i` is masked on the start draw plus the number of drawing rows above it, and the final draw count adds all drawing rows |
| Engine.CountGrows | data_masking_tool.py:434-436 | a drawing row raises the draw count seen by every row below it, so no two drawing rows share a draw |
| Engine.MaskColumnFake | data_masking_tool.py:479-499 | a fake-data column replaces each present cell with the field's generator on its own draw, the start draw plus the present cells above it; missing cells stay missing and draw nothing; the reverse mapping is unchanged |
| Engine.MaskColumnRandomized | data_masking_tool.py:548-555 | a number-randomisation column replaces each cell that parses as a float with the noisy number on its own draw, the start draw plus the parsable cells above it; other cells are kept and draw nothing; the reverse mapping is unchanged |
| Engine.ApplyRules | data_masking_tool.py:432-437 | the pass keeps the table's columns, and missing cells stay missing; without number randomization rules, present cells also stay present; columns no rule names are copied unchanged; without encryption rules the reverse mapping is unchanged |
| Engine.ApplyRulesError | data_masking_tool.py:432-446 | for a store without repeated fields, as a dictionary is, the pass raises exactly when some rule has a missing column or an encrypting rule with a bad key meets a present value; the error is that of the first such rule |
| Engine.ApplyStopsAtFirstFailure | data_masking_tool.py:427-446 | for a store without repeated fields, when rule `k` is the first to fail, the table and state left behind are those of the rules before `k`, so the partial result is kept |
| Engine.ApplyStatelessRules | data_masking_tool.py:432-436 | rules that neither encrypt nor draw, on distinct present columns, complete the pass without state change, and each ruled column is masked cell by cell with its own rule |
| Engine.MaskValueFrame | data_masking_tool.py:468-477 | masking one cell writes only the reverse mapping of its own field |
| Engine.MaskColumnFrame | data_masking_tool.py:434-436 | masking a column writes only the reverse mapping of its own field |
| Engine.ApplyRulesFieldFrame | data_masking_tool.py:432-436 | a field that no rule names keeps its reverse mapping through the whole pass |
| Engine.ApplyRulesAppend | data_masking_tool.py:432-436 | running two lists of rules in sequence is running the first, then, unless it raised, the second on what the first left |
| Engine.ApplyRulesColumn | data_masking_tool.py:432-436 | in a pass that completes over a store without repeated fields, each rule's column is masked by that rule on the state the earlier rules left, and no later rule touches it again, so the result holds that masked column |
| Engine.ApplyRulesReversible | data_masking_tool.py:432-436 | in a pass that completes, an encryption rule with a valid key leaves each present cell of its column mapped back to its original in the final reverse mapping, unless a later row produced the same output; missing cells stay missing |
| Engine.MissingKeyEntryFails | data_masking_tool.py:432-436 | in the pass, an encryption rule without a key fails exactly when its column is missing or holds a value, and then the error is the invalid empty key that `Fernet(b'')` raises at line 470 or 506 |
| Engine.ApplyMasking | data_masking_tool.py:417-446 | with no data, or no rules, nothing changes; the loaded table and the rules are only read; the masked copy has the same columns, missing cells stay missing, present cells stay present unless a rule randomizes numbers, and unruled columns are copied unchanged |
| Engine.ApplyMaskingFailsIff | data_masking_tool.py:427-446 | for a store without repeated fields, masking reports failure exactly when some rule fails on the loaded table, and reports the first failing rule's error |
| Engine.ApplyMaskingMasksColumns | data_masking_tool.py:427-436 | a completed masking run holds, for each rule, the loaded column masked by that rule on the state the earlier rules left |
| Engine.ApplyMaskingReversible | data_masking_tool.py:427-436 | after a completed masking run, an encryption rule with a valid key leaves each present cell of its column mapped back to its original in the reverse mapping, unless a later row produced the same output |
| Engine.ClearRules | data_masking_tool.py:397-401 | a confirmed clear empties the rule store and keeps the data, the masked copy and the reverse mapping; a declined prompt changes nothing |
| Engine.ClearedRulesRefuseApply | data_masking_tool.py:397-425 | after a confirmed clear, masking is refused with "define masking rules first" |
| Demo.FullMaskHelperMatchesTool | test_demo.py:30-32 | `full_mask` returns what the tool's full-masking branch returns for a present value, with no state change |
| Demo.FullMaskHelper | test_demo.py:30-32 | `full_mask` returns one star per character of its argument |
| Demo.PartialMaskHelper | test_demo.py:34-39 | `partial_mask` stars a value no longer than the two kept ends; otherwise, with `keep_last >= 1`, it keeps the length, the first `keep_first` and last `keep_last` characters, and stars the middle |
| Demo.PartialMaskHelperMatchesTool | test_demo.py:34-39 | `partial_mask` with any keep counts is the tool's partial branch with those options, and with its default arguments it is the branch for a rule without options |
| Demo.SplitOnce | test_demo.py:44 | `split('@', 1)` yields two parts exactly when `'@'` occurs; joined around `'@'` they give back the value, and the first part has no `'@'` |
| Demo.EmailMaskHelper | test_demo.py:41-50 | `email_mask` keeps the length and stars everything when there is no `'@'` |
| Demo.EmailMaskHelperAgrees | test_demo.py:41-50 | `email_mask`, splitting the value itself, gives the same text as the tool's e-mail branch |
| Demo.EmailMaskHelperMatchesTool | test_demo.py:41-50 | `email_mask` returns what the tool's e-mail branch returns for a present value, with no state change |
| Demo.FilterIsDigit | test_demo.py:54 | `''.join(filter(str.isdigit, s))` returns only digits and is never longer than `s` |
| Demo.FilterIsDigitAgrees | test_demo.py:54 | with both filters on the ASCII digits, `filter(str.isdigit, ...)` collects the same digits as the tool's `re.sub(r'\D', '', ...)` |
| Demo.PhoneMaskHelper | test_demo.py:52-57 | `phone_mask` keeps the length, and with four digits or more keeps the last four characters |
| Demo.PhoneMaskHelperAgrees | test_demo.py:52-57 | with ASCII digits, `phone_mask` gives the same text as the tool's phone branch |
| Demo.PhoneMaskHelperMatchesTool | test_demo.py:52-57 | with ASCII digits, `phone_mask` returns what the tool's phone branch returns for a present value, with no state change |
| Demo.SsnMaskHelper | test_demo.py:59-64 | `ssn_mask` gives `"***-**-"` and four more characters when there are four digits or more, and stars of the value's length otherwise |
| Demo.SsnMaskHelperAgrees | test_demo.py:59-64 | with ASCII digits, `ssn_mask` gives the same text as the tool's SSN branch |
| Demo.SsnMaskHelperMatchesTool | test_demo.py:59-64 | with ASCII digits, `ssn_mask` returns what the tool's SSN branch returns for a present value, with no state change |
| Demo.HashValueHelper | test_demo.py:66-68 | `hash_value` is 16 characters long |
| Demo.HashValueHelperMatchesTool | test_demo.py:66-68 | `hash_value` returns what the tool's one-way hash branch returns for a present value, with no state change |

## Left out

- The Tkinter user interface is not modelled: widgets, tabs, message boxes, logging, the result views and the progress bar. Each message box is represented only by the outcome value an edit or a pass returns.
- File I/O is not modelled: CSV/Excel loading and saving, and the JSON export and import of rules and reverse mapping. Imported rules are covered only in that a rule's type is any string and its options may be absent.
- Key generation (`generate_key`, `encryption_key`) is not modelled. It only fills the key widget.
- Fernet encryption, URL-safe base64 (section 5 of RFC 4648) and SHA-256 (FIPS 180-4) are opaque functions. Only their contracts as used are stated: key validity decides the exception, the digest is 32 bytes, and the hex rendering is exact.
- Externals.KeysWellFormed: the oracle is assumed to reject the empty key, as `Fernet(b'')` does, since an empty string is not 32 base64-encoded bytes. Only the lemmas about keyless rules rely on it.
- Faker's generated values are opaque. Only the choice of generator is modelled.
- Date Shifting is opaque. The oracle returns the shifted date text or nothing; only "parse failure keeps the value" is stated.
- Date Shifting and Number Randomization parse the raw cell, not its text: `pd.to_datetime(value)` (data_masking_tool.py:542) and `float(value)` (line 550). The model gives the oracle only the text `str(value)`, so it cannot tell an integer cell `20200101`, which pandas reads as nanoseconds since 1970, from the string `"20200101"`, which it reads as 2020-01-01. No stated property depends on the difference.
- Number Randomization is opaque. It involves float parsing, random noise and rounding. The oracle returns the noisy number's text, or a missing value when the result is NaN: the text "nan" (in any case) parses as NaN, and an infinite value drawn at or below one half gets noise of the opposite sign or `inf * 0`, so the sum is NaN. pandas reads a NaN back as missing.
- Masking.MaskValue: "a present value stays present" is stated for every type except Number Randomization, because that type can produce NaN.
- Engine.MaskColumn: present cells are promised to stay present only under rules other than Number Randomization, for the NaN reason above. Missing cells stay missing under every rule.
- Engine.ApplyRules: present cells are promised to stay present only when no rule is Number Randomization, for the NaN reason above.
- Engine.ApplyMasking: present cells are promised to stay present only when no rule is Number Randomization, for the NaN reason above.
- Engine.ApplyMasking: the model assumes that no UI event is handled while the pass runs, and takes the rule store and the masked copy as fixed for the whole pass. `log` (data_masking_tool.py:241-246) calls `self.root.update()`, and the loop calls `log` at line 433 while it iterates `masking_rules.items()`, so a button press can be handled mid-pass. Adding a rule for a new field or removing one there raises "dictionary changed size during iteration". Overwriting an existing field's rule raises nothing, and the later iterations use the new rule. "Clear Rules" rebinds `self.masking_rules = {}` (line 400), so the running loop keeps iterating the old dictionary and raises nothing. A second "Apply Masking" click runs a nested pass that replaces `self.masked_df` (line 429); the outer pass then masks its remaining columns of that new copy a second time, and for an encryption rule the reverse mapping sends the second token to the first token instead of to the original.
- Engine.ApplyMasking: on an exception, the masked copy keeps the columns masked before the failure, and the reverse mapping keeps the entries already recorded. This happens because `masked_df` is assigned before the loop.
- The text form `str(value)` of non-string cells (numbers, dates) is taken as given. Cells are modelled as their text.
- Digits are ASCII `0`-`9` for both `re.sub(r'\D', ...)` and `str.isdigit`. Python's `\d` also matches other Unicode decimal digits, and `str.isdigit` also accepts characters such as superscripts and circled digits, which `\d` rejects.
- Demo.FilterIsDigit: modelled on ASCII digits. Python's `str.isdigit` also accepts '²' and '①', which the tool's `\D` deletes. So `filter(str.isdigit, "123²")` gives "123²" where the tool keeps "123".
- Demo.PhoneMaskHelper: agreement with the tool holds when every digit-like character of the value is an ASCII digit. For "123²", `phone_mask` counts four digits and returns "123²", while the tool counts three and returns "****".
- Demo.SsnMaskHelper: agreement with the tool holds when every digit-like character of the value is an ASCII digit. For "123²", `ssn_mask` returns "***-**-123²", while the tool counts three digits and returns "****".
- Demo.EmailMaskHelper: `email_mask` uses its argument as a string without `str()`, so a non-string argument would raise. Only string arguments are modelled.
- Lower-casing of field names is ASCII only. For the ASCII keywords searched for, Python's full `str.lower` gives the same category choice.
- The spinbox values `int(self.keep_first.get())` are modelled as integers already parsed. A non-numeric entry raising `ValueError` is not modelled.
- pandas' dtype inference on the masked column is not modelled.
- ValueMasks.PartialMask: nothing is stated for negative keep values beyond the all-stars case, although the body follows Python's slice rules for them too.
- Policy.AddMaskingRule: the source tests the key inside the per-field loop. The test does not depend on the field, so the model tests it once before the loop. This gives the same outcome: a refusal before anything is stored.

=== FILE: demo.dfy ===
/**
 The stand-alone masking helpers of the demonstration script, written from
 their own definitions: `full_mask`, `partial_mask`, `email_mask`,
 `phone_mask`, `ssn_mask` and `hash_value`. Each is shown to compute what
 `mask_value` returns for a present value under the corresponding rule.
 `phone_mask` and `ssn_mask` collect digits with `filter(str.isdigit)`, read
 from the right end here, where the tool uses `re.sub(r'\D', '', ...)`; both
 filters are modelled on the ASCII digits.
 */
module Demo {
  import opened Wrappers
  import opened PyStr
  import opened Externals
  import opened Rules
  import opened Masking
  import opened ValueMasks

  /** `full_mask(value)`: one star per character of `str(value)`. */
  function FullMaskHelper(value: string): (r: string)
    ensures |r| == |value| && AllStars(r)
  {
    Repeat('*', |value|)
  }

  /** `partial_mask(value, keep_first=0, keep_last=4)`. */
  function PartialMaskHelper(value: string, keepFirst: int := 0, keepLast: int := 4): (r: string)
    ensures |value| <= keepFirst + keepLast ==> |r| == |value| && AllStars(r)
    ensures 0 <= keepFirst && 1 <= keepLast && keepFirst + keepLast < |value| ==>
      && |r| == |value|
      && r[..keepFirst] == value[..keepFirst]
      && AllStars(r[keepFirst..|value| - keepLast])
      && r[|value| - keepLast..] == value[|value| - keepLast..]
  {
    if |value| <= keepFirst + keepLast then Repeat('*', |value|)
    else
      SliceTo(value, keepFirst) + Repeat('*', |value| - keepFirst - keepLast) + SliceFrom(value, -keepLast)
  }

  /** `s.split(c, 1)` when c occurs in s: the text before the first c and the
      text after it. None when c does not occur. */
  function SplitOnce(s: string, c: char): (r: Option<(string, string)>)
    ensures r.None? <==> c !in s
    // the two parts joined around c give back s, and the first part has no c
    ensures r.Some? ==> s == r.value.0 + [c] + r.value.1 && c !in r.value.0
  {
    if |s| == 0 then None
    else if s[0] == c then
      assert s == [] + [c] + s[1..];
      Some(([], s[1..]))
    else
      match SplitOnce(s[1..], c)
      case None => None
      case Some((before, after)) =>
        assert s == [s[0]] + s[1..];
        Some(([s[0]] + before, after))
  }

  /** `email_mask(email)`: the local part keeps its first and last character
      when it is longer than two, and is starred otherwise; the domain stays.
      A value without '@' is fully starred. */
  function EmailMaskHelper(email: string): (r: string)
    ensures |r| == |email|
    ensures '@' !in email ==> AllStars(r)
  {
    match SplitOnce(email, '@')
    case None => Repeat('*', |email|)
    case Some((local, domain)) =>
      var maskedLocal :=
        if |local| > 2 then [local[0]] + Repeat('*', |local| - 2) + [local[|local| - 1]]
        else Repeat('*', |local|);
      maskedLocal + "@" + domain
  }

  /** `''.join(filter(str.isdigit, s))`, built from the right end: the digits
      of everything but the last character, then the last one if it is a digit. */
  function FilterIsDigit(s: string): (d: string)
    ensures |d| <= |s|
    ensures forall i :: 0 <= i < |d| ==> IsDigit(d[i])
  {
    if |s| == 0 then ""
    else FilterIsDigit(s[..|s| - 1]) + (if IsDigit(s[|s| - 1]) then [s[|s| - 1]] else "")
  }

  /** With both read as the ASCII digits, filtering with `str.isdigit` keeps the
      same characters as deleting `\D`. */
  lemma {:induction false} FilterIsDigitAgrees(s: string)
    ensures FilterIsDigit(s) == Digits(s)
    decreases |s|
  {
    if |s| > 0 {
      var init := s[..|s| - 1];
      var last := s[|s| - 1];
      FilterIsDigitAgrees(init);
      assert s == init + [last];
      DigitsAppend(init, [last]);
      DigitsOfChar(last);
    }
  }

  /** `phone_mask(phone)`: with four digits or more, stars then the last four
      characters; otherwise all stars. */
  function PhoneMaskHelper(phone: string): (r: string)
    ensures |r| == |phone|
    ensures 4 <= |FilterIsDigit(phone)| ==> r[|phone| - 4..] == phone[|phone| - 4..]
  {
    var digits := FilterIsDigit(phone);
    if |digits| >= 4 then Repeat('*', |phone| - 4) + SliceFrom(phone, -4)
    else Repeat('*', |phone|)
  }

  /** `ssn_mask(ssn)`: with four digits or more, "***-**-" and the last four
      digits; otherwise all stars. */
  function SsnMaskHelper(ssn: string): (r: string)
    ensures 4 <= |FilterIsDigit(ssn)| ==> |r| == 11 && r[..7] == "***-**-"
    ensures |FilterIsDigit(ssn)| < 4 ==> |r| == |ssn| && AllStars(r)
  {
    var digits := FilterIsDigit(ssn);
    if |digits| >= 4 then "***-**-" + SliceFrom(digits, -4)
    else Repeat('*', |ssn|)
  }

  /** `hash_value(value)`: the first sixteen characters of the SHA-256 hex digest. */
  function HashValueHelper(o: Oracle, value: string): (r: string)
    ensures |r| == 16
  {
    SliceTo(HexDigest(o.sha256(value)), 16)
  }

  /** `full_mask` is "Full Masking (****)". */
  lemma FullMaskHelperMatchesTool(o: Oracle, s: string, field: string, st: MaskState)
    ensures MaskValue(o, Some(s), Rule(Label(FullMasking), NoOptions), field, st)
         == Success((Some(FullMaskHelper(s)), st))
  {
    LabelRoundTrip(FullMasking);
  }

  /** `partial_mask` with given ends is "Partial Masking" with those options,
      and with its default arguments it is the rule without options. */
  lemma PartialMaskHelperMatchesTool(o: Oracle, s: string, field: string, st: MaskState, keepFirst: int, keepLast: int)
    ensures MaskValue(o, Some(s), Rule(Label(PartialMasking), Options(Some(keepFirst), Some(keepLast), None, None)), field, st)
         == Success((Some(PartialMaskHelper(s, keepFirst, keepLast)), st))
    ensures MaskValue(o, Some(s), Rule(Label(PartialMasking), NoOptions), field, st)
         == Success((Some(PartialMaskHelper(s)), st))
  {
    LabelRoundTrip(PartialMasking);
  }

  /** `email_mask`, splitting at the first '@' itself, is "Email Masking". */
  lemma EmailMaskHelperMatchesTool(o: Oracle, s: string, field: string, st: MaskState)
    ensures MaskValue(o, Some(s), Rule(Label(EmailMasking), NoOptions), field, st)
         == Success((Some(EmailMaskHelper(s)), st))
  {
    LabelRoundTrip(EmailMasking);
    EmailMaskHelperAgrees(s);
  }

  /** Splitting at the first '@' and masking the parts is the tool's e-mail mask. */
  lemma EmailMaskHelperAgrees(s: string)
    ensures EmailMaskHelper(s) == EmailMask(s)
  {
    match SplitOnce(s, '@')
    case None =>
    case Some((local, domain)) =>
      assert s == local + "@" + domain;
      EmailMaskSplit(local, domain);
  }

  /** `phone_mask` is "Phone Masking". */
  lemma PhoneMaskHelperMatchesTool(o: Oracle, s: string, field: string, st: MaskState)
    ensures MaskValue(o, Some(s), Rule(Label(PhoneMasking), NoOptions), field, st)
         == Success((Some(PhoneMaskHelper(s)), st))
  {
    LabelRoundTrip(PhoneMasking);
    PhoneMaskHelperAgrees(s);
  }

  /** The digit count that decides phone masking is the same under both filters. */
  lemma PhoneMaskHelperAgrees(s: string)
    ensures PhoneMaskHelper(s) == PhoneMask(s)
  {
    FilterIsDigitAgrees(s);
  }

  /** `ssn_mask` is "SSN Masking". */
  lemma SsnMaskHelperMatchesTool(o: Oracle, s: string, field: string, st: MaskState)
    ensures MaskValue(o, Some(s), Rule(Label(SsnMasking), NoOptions), field, st)
         == Success((Some(SsnMaskHelper(s)), st))
  {
    LabelRoundTrip(SsnMasking);
    SsnMaskHelperAgrees(s);
  }

  /** Both filters keep the same digits, so the SSN masks agree. */
  lemma SsnMaskHelperAgrees(s: string)
    ensures SsnMaskHelper(s) == SsnMask(s)
  {
    FilterIsDigitAgrees(s);
  }

  /** `hash_value` is "Hash (One-way)". */
  lemma HashValueHelperMatchesTool(o: Oracle, s: string, field: string, st: MaskState)
    ensures MaskValue(o, Some(s), Rule(Label(HashOneWay), NoOptions), field, st)
         == Success((Some(HashValueHelper(o, s)), st))
  {
    LabelRoundTrip(HashOneWay);
  }
}

=== FILE: engine.dfy ===
/**
 `apply_masking`: the rules are applied one after another, in the order the rule
 store iterates them, each rule mapping `mask_value` over one column of a copy
 of the loaded table. The first exception stops the pass; the copy keeps the
 columns masked before it, and the reverse mapping keeps what was recorded.
 */
module Engine {
  import opened Wrappers
  import opened Externals
  import opened Rules
  import opened ReverseStore
  import opened FakeData
  import opened Masking

  /** A column: each cell in text form, None for a missing value. */
  type Column = seq<Option<string>>

  /** A table: column name to column. */
  type Table = map<string, Column>

  /** The column holds at least one value that is not missing. */
  predicate HasValue(c: Column)
  {
    exists i :: 0 <= i < |c| && c[i].Some?
  }

  /** Same length, and every row missing in a is missing in b. */
  predicate NullsKept(a: Column, b: Column)
  {
    |a| == |b| && forall i :: 0 <= i < |a| && a[i].None? ==> b[i].None?
  }

  /** Same length, and missing values in exactly the same rows. */
  predicate SameNulls(a: Column, b: Column)
  {
    |a| == |b| && forall i :: 0 <= i < |a| ==> (a[i].None? <==> b[i].None?)
  }

  /** Same column names, and each column keeps its missing values. */
  predicate KeepsShape(a: Table, b: Table)
  {
    a.Keys == b.Keys && forall f :: f in a ==> NullsKept(a[f], b[f])
  }

  /** Same column names, and each column has its missing values exactly where
      they were. */
  predicate SameShape(a: Table, b: Table)
  {
    a.Keys == b.Keys && forall f :: f in a ==> SameNulls(a[f], b[f])
  }

  /** The outcome of `Series.apply(mask_value)` on one column. */
  datatype ColumnResult =
    | ColumnDone(col: Column, state: MaskState)
    | ColumnFailed(error: MaskError, state: MaskState)

  /** `column.apply(lambda x: mask_value(x, rule, field))`: the cells are masked
      top to bottom, threading the state; the first exception ends the apply. */
  function MaskColumn(o: Oracle, col: Column, rule: Rule, field: string, st: MaskState): (r: ColumnResult)
    // missing cells stay missing; present cells stay present unless the rule
    // is number randomisation, whose NaN results are missing
    ensures r.ColumnDone? ==> NullsKept(col, r.col)
    ensures r.ColumnDone? && !Randomizes(rule) ==> SameNulls(col, r.col)
    // the apply fails exactly when an encryption rule with a malformed key meets a value
    ensures r.ColumnFailed? <==> Encrypts(rule) && !o.fernetKeyValid(KeyOf(rule.options)) && HasValue(col)
    // it fails on the first value, before anything is recorded or drawn
    ensures r.ColumnFailed? ==> r.error == InvalidKey(KeyOf(rule.options)) && r.state == st
    ensures r.ColumnDone? && Stateless(rule) ==> r.state == st
    ensures r.ColumnDone? && !Encrypts(rule) ==> r.state.reverse == st.reverse
    decreases |col|
  {
    if |col| == 0 then ColumnDone([], st)
    else
      match MaskValue(o, col[0], rule, field, st)
      case Failure(e) => ColumnFailed(e, st)
      case Success((v, st1)) =>
        assert HasValue(col) <==> col[0].Some? || HasValue(col[1..]) by {
          if HasValue(col[1..]) {
            var i :| 0 <= i < |col[1..]| && col[1..][i].Some?;
            assert col[i + 1].Some?;
          }
        }
        match MaskColumn(o, col[1..], rule, field, st1)
        case ColumnFailed(e, st2) => ColumnFailed(e, st2)
        case ColumnDone(rest, st2) => ColumnDone([v] + rest, st2)
  }

  /** A rule that neither encrypts nor draws masks each cell on its own: cell i
      of the result is `mask_value` of cell i, whatever the other cells are. */
  lemma {:induction false} MaskColumnStateless(o: Oracle, col: Column, rule: Rule, field: string, st: MaskState)
    requires Stateless(rule)
    ensures var r := MaskColumn(o, col, rule, field, st);
      && r.ColumnDone?
      && r.state == st
      && forall i :: 0 <= i < |col| ==> MaskValue(o, col[i], rule, field, st) == Success((r.col[i], st))
    decreases |col|
  {
    if |col| > 0 {
      MaskColumnStateless(o, col[1..], rule, field, st);
      var r := MaskColumn(o, col, rule, field, st);
      forall i | 1 <= i < |col|
        ensures MaskValue(o, col[i], rule, field, st) == Success((r.col[i], st))
      {
        assert col[1..][i - 1] == col[i];
      }
    }
  }

  /** How many cells of c satisfy p. */
  function Count(c: Column, p: Option<string> -> bool): (n: nat)
    ensures n <= |c|
  {
    if |c| == 0 then 0 else (if p(c[0]) then 1 else 0) + Count(c[1..], p)
  }

  /** Counting over a + b counts over a, then over b. */
  lemma {:induction false} CountAppend(a: Column, b: Column, p: Option<string> -> bool)
    ensures Count(a + b, p) == Count(a, p) + Count(b, p)
    decreases |a|
  {
    if |a| == 0 {
      assert a + b == b;
    } else {
      assert (a + b)[0] == a[0] && (a + b)[1..] == a[1..] + b;
      CountAppend(a[1..], b, p);
    }
  }

  /** A row that satisfies p makes the count over every longer prefix larger,
      so two such rows never see the same count before them. */
  lemma CountGrows(c: Column, p: Option<string> -> bool, i: nat, j: nat)
    requires i < j <= |c| && p(c[i])
    ensures Count(c[..i], p) < Count(c[..j], p)
  {
    assert c[..j] == c[..i] + [c[i]] + c[i + 1..j];
    CountAppend(c[..i] + [c[i]], c[i + 1..j], p);
    CountAppend(c[..i], [c[i]], p);
  }

  /** The cell holds a value: every such cell of a fake-data column draws once. */
  predicate IsPresent(c: Option<string>)
  {
    c.Some?
  }

  /** The cell holds a value that parses as a float: every such cell of a
      number-randomisation column draws once. */
  function Parses(o: Oracle): Option<string> -> bool
  {
    (c: Option<string>) => c.Some? && o.parsesAsFloat(c.value)
  }

  /** The count over the prefix up to row i + 1 of c is the count of the first
      row plus the count over the prefix up to row i of the tail. */
  lemma CountPrefixTail(c: Column, p: Option<string> -> bool, i: nat)
    requires 0 < |c| && i < |c|
    ensures Count(c[..i + 1], p) == (if p(c[0]) then 1 else 0) + Count(c[1..][..i], p)
  {
    assert c[..i + 1][0] == c[0] && c[..i + 1][1..] == c[1..][..i];
  }

  /** Under the rule, every cell c masks to g(c, n) on draw n, and consumes
      that draw exactly when p(c); nothing else in the state changes. */
  ghost predicate DrawsPerCell(o: Oracle, rule: Rule, field: string,
                               p: Option<string> -> bool, g: (Option<string>, nat) -> Option<string>)
  {
    forall c, s: MaskState {:trigger MaskValue(o, c, rule, field, s)} ::
      MaskValue(o, c, rule, field, s) == Success((g(c, s.draws), MaskState(s.reverse, s.draws + (if p(c) then 1 else 0))))
  }

  /** Row i of out is g of row i of col on draw d plus the count of p above it. */
  ghost predicate DrawnEach(col: Column, out: Column, p: Option<string> -> bool,
                            g: (Option<string>, nat) -> Option<string>, d: nat)
  {
    |out| == |col| && forall i :: 0 <= i < |col| ==> out[i] == g(col[i], d + Count(col[..i], p))
  }

  /** The step of MaskColumnDraws: the first row on draw d, the rest on the
      draws after it. */
  lemma DrawStep(col: Column, out0: Option<string>, restOut: Column, p: Option<string> -> bool,
                 g: (Option<string>, nat) -> Option<string>, d: nat)
    requires |col| > 0 && out0 == g(col[0], d)
    requires DrawnEach(col[1..], restOut, p, g, d + (if p(col[0]) then 1 else 0))
    ensures DrawnEach(col, [out0] + restOut, p, g, d)
  {
    var out := [out0] + restOut;
    forall i | 0 <= i < |col|
      ensures out[i] == g(col[i], d + Count(col[..i], p))
    {
      if i == 0 {
        assert col[..0] == [];
      } else {
        assert out[i] == restOut[i - 1] && col[1..][i - 1] == col[i];
        CountPrefixTail(col, p, i - 1);
      }
    }
  }

  /** A rule that masks each cell on its own draw masks a column row by row,
      row i on the start draw plus the drawing rows above it. */
  lemma {:induction false} MaskColumnDraws(o: Oracle, col: Column, rule: Rule, field: string, st: MaskState,
                                           p: Option<string> -> bool, g: (Option<string>, nat) -> Option<string>)
    requires DrawsPerCell(o, rule, field, p, g)
    ensures var r := MaskColumn(o, col, rule, field, st);
      && r.ColumnDone?
      && r.state == MaskState(st.reverse, st.draws + Count(col, p))
      && DrawnEach(col, r.col, p, g, st.draws)
    decreases |col|
  {
    if |col| > 0 {
      var m := MaskValue(o, col[0], rule, field, st);
      assert m == Success((g(col[0], st.draws), MaskState(st.reverse, st.draws + (if p(col[0]) then 1 else 0))));
      var st1 := m.value.1;
      MaskColumnDraws(o, col[1..], rule, field, st1, p, g);
      var rest := MaskColumn(o, col[1..], rule, field, st1);
      assert MaskColumn(o, col, rule, field, st) == ColumnDone([m.value.0] + rest.col, rest.state);
      DrawStep(col, m.value.0, rest.col, p, g, st.draws);
    }
  }

  /** A fake-data cell on draw n: the field's generator on that draw. */
  function FakeCell(o: Oracle, field: string): (Option<string>, nat) -> Option<string>
  {
    (c: Option<string>, n: nat) => if c.None? then None else Some(o.fake(FakeKindFor(field), n))
  }

  /** A number-randomisation cell on draw n: the noisy number when it parses. */
  function NoisyCell(o: Oracle): (Option<string>, nat) -> Option<string>
  {
    (c: Option<string>, n: nat) => if Parses(o)(c) then o.noisyNumber(c.value, n) else c
  }

  /** A fake-data column replaces each present cell with the field's generator
      on its own draw: the draw number of row i is the start count plus the
      present cells above it, so rows never share a draw (CountGrows). Missing
      cells stay missing and draw nothing; the reverse mapping is untouched. */
  lemma MaskColumnFake(o: Oracle, col: Column, rule: Rule, field: string, st: MaskState)
    requires StrategyOf(rule.kind) == Some(FakeDataReplacement)
    ensures var r := MaskColumn(o, col, rule, field, st);
      && r.ColumnDone?
      && |r.col| == |col|
      && r.state == MaskState(st.reverse, st.draws + Count(col, IsPresent))
      && forall i :: 0 <= i < |col| ==>
           r.col[i] == (if col[i].None? then None
                        else Some(o.fake(FakeKindFor(field), st.draws + Count(col[..i], IsPresent))))
  {
    FakeDrawsPerCell(o, rule, field);
    MaskColumnDraws(o, col, rule, field, st, IsPresent, FakeCell(o, field));
    var r := MaskColumn(o, col, rule, field, st);
    forall i | 0 <= i < |col|
      ensures r.col[i] == (if col[i].None? then None
                           else Some(o.fake(FakeKindFor(field), st.draws + Count(col[..i], IsPresent))))
    {
      assert r.col[i] == FakeCell(o, field)(col[i], st.draws + Count(col[..i], IsPresent));
    }
  }

  /** Every cell of a fake-data column draws exactly when it is present. */
  lemma FakeDrawsPerCell(o: Oracle, rule: Rule, field: string)
    requires StrategyOf(rule.kind) == Some(FakeDataReplacement)
    ensures DrawsPerCell(o, rule, field, IsPresent, FakeCell(o, field))
  {
    forall c, s: MaskState
      ensures MaskValue(o, c, rule, field, s)
           == Success((FakeCell(o, field)(c, s.draws), MaskState(s.reverse, s.draws + (if IsPresent(c) then 1 else 0))))
    {
      if c.Some? {
        FakeUsesFieldCategory(o, c.value, rule, field, s);
      }
    }
  }

  /** A number-randomisation column replaces each cell that parses as a float
      with the noisy number on its own draw, counted as the start count plus
      the parsable cells above it; other cells, missing or not, stay as they
      are and draw nothing. The reverse mapping is untouched. */
  lemma MaskColumnRandomized(o: Oracle, col: Column, rule: Rule, field: string, st: MaskState)
    requires Randomizes(rule)
    ensures var r := MaskColumn(o, col, rule, field, st);
      && r.ColumnDone?
      && |r.col| == |col|
      && r.state == MaskState(st.reverse, st.draws + Count(col, Parses(o)))
      && forall i :: 0 <= i < |col| ==>
           r.col[i] == (if Parses(o)(col[i]) then o.noisyNumber(col[i].value, st.draws + Count(col[..i], Parses(o)))
                        else col[i])
  {
    NoisyDrawsPerCell(o, rule, field);
    MaskColumnDraws(o, col, rule, field, st, Parses(o), NoisyCell(o));
  }

  /** Every cell of a number-randomisation column draws exactly when it parses. */
  lemma NoisyDrawsPerCell(o: Oracle, rule: Rule, field: string)
    requires Randomizes(rule)
    ensures DrawsPerCell(o, rule, field, Parses(o), NoisyCell(o))
  {
    forall c, s: MaskState
      ensures MaskValue(o, c, rule, field, s)
           == Success((NoisyCell(o)(c, s.draws), MaskState(s.reverse, s.draws + (if Parses(o)(c) then 1 else 0))))
    {
      if Parses(o)(c) {
        RandomizationResult(o, c.value, rule, field, s);
      } else if c.Some? {
        ParseFailureKeepsValue(o, c.value, rule, field, s);
      }
    }
  }

  /** An encryption rule with a well-formed key files each value under its
      token in the field's reverse mapping: a token not produced again further
      down maps back to its own row's value (a later duplicate overwrites, as in
      a dictionary). Other fields, and texts that are not tokens of this
      column, are untouched. */
  lemma {:induction false} EncryptedColumnReversible(o: Oracle, col: Column, rule: Rule, field: string, st: MaskState)
    requires Encrypts(rule) && o.fernetKeyValid(KeyOf(rule.options))
    ensures var r := MaskColumn(o, col, rule, field, st);
      && r.ColumnDone?
      && (forall g, k :: g != field ==> Lookup(r.state.reverse, g, k) == Lookup(st.reverse, g, k))
      && (forall k :: Some(k) !in r.col ==> Lookup(r.state.reverse, field, k) == Lookup(st.reverse, field, k))
      && (forall i :: 0 <= i < |col| && col[i].Some? && (forall j :: i < j < |col| ==> r.col[j] != r.col[i]) ==>
            Lookup(r.state.reverse, field, r.col[i].value) == col[i])
    decreases |col|
  {
    if |col| > 0 {
      var m := MaskValue(o, col[0], rule, field, st);
      var st1 := m.value.1;
      EncryptedColumnReversible(o, col[1..], rule, field, st1);
      var rest := MaskColumn(o, col[1..], rule, field, st1);
      var r := MaskColumn(o, col, rule, field, st);
      assert r.col == [m.value.0] + rest.col;
      assert r.state == rest.state;
      if col[0].Some? {
        EncryptionRecordsReverse(o, col[0].value, rule, field, st);
      }
      ReversibleStep(field, col, m.value.0, rest.col, st.reverse, st1.reverse, rest.state.reverse);
    }
  }

  /** The step of EncryptedColumnReversible, on the reverse mappings alone: rm0
      before the first cell, rm1 after it, rmEnd after the rest of the column. */
  lemma ReversibleStep(field: string, col: Column, out0: Option<string>, restOut: Column,
                       rm0: ReverseMap, rm1: ReverseMap, rmEnd: ReverseMap)
    requires |col| > 0 && |restOut| == |col| - 1
    requires col[0].None? ==> out0 == col[0] && rm1 == rm0
    requires col[0].Some? ==>
      && out0.Some?
      && Lookup(rm1, field, out0.value) == col[0]
      && forall g, k :: (g, k) != (field, out0.value) ==> Lookup(rm1, g, k) == Lookup(rm0, g, k)
    requires forall g, k :: g != field ==> Lookup(rmEnd, g, k) == Lookup(rm1, g, k)
    requires forall k :: Some(k) !in restOut ==> Lookup(rmEnd, field, k) == Lookup(rm1, field, k)
    requires forall i :: 0 <= i < |restOut| && col[i + 1].Some? ==> restOut[i].Some?
    requires forall i ::
      (0 <= i < |restOut| && col[i + 1].Some? && (forall j :: i < j < |restOut| ==> restOut[j] != restOut[i])) ==>
        Lookup(rmEnd, field, restOut[i].value) == col[i + 1]
    ensures var out := [out0] + restOut;
      && (forall g, k :: g != field ==> Lookup(rmEnd, g, k) == Lookup(rm0, g, k))
      && (forall k :: Some(k) !in out ==> Lookup(rmEnd, field, k) == Lookup(rm0, field, k))
      && (forall i :: 0 <= i < |col| && col[i].Some? && (forall j :: i < j < |col| ==> out[j] != out[i]) ==>
            Lookup(rmEnd, field, out[i].value) == col[i])
  {
    var out := [out0] + restOut;
    forall i | 0 <= i < |col| && col[i].Some? && (forall j :: i < j < |col| ==> out[j] != out[i])
      ensures Lookup(rmEnd, field, out[i].value) == col[i]
    {
      if i == 0 {
        assert Some(out[0].value) !in restOut by {
          forall j | 0 <= j < |restOut|
            ensures restOut[j] != out[0]
          {
            assert out[j + 1] == restOut[j];
          }
        }
      } else {
        forall j | i - 1 < j < |restOut|
          ensures restOut[j] != restOut[i - 1]
        {
          assert out[j + 1] == restOut[j];
        }
      }
    }
    forall k | Some(k) !in out
      ensures Lookup(rmEnd, field, k) == Lookup(rm0, field, k)
    {
      assert Some(k) !in restOut;
    }
  }

  /** The error that stops the pass at an entry. */
  function ErrorAt(t: Table, e: Entry): MaskError
  {
    if e.field !in t then MissingColumn(e.field) else InvalidKey(KeyOf(e.rule.options))
  }

  /** The entry stops the pass: its column is missing, or it encrypts with a
      malformed key a column that holds a value. */
  predicate FailsAt(o: Oracle, t: Table, e: Entry)
  {
    e.field !in t || (Encrypts(e.rule) && !o.fernetKeyValid(KeyOf(e.rule.options)) && HasValue(t[e.field]))
  }

  /** What the pass leaves behind: the masked copy, the state, and the exception
      that ended it, if any. */
  datatype Pass = Pass(table: Table, state: MaskState, error: Option<MaskError>)

  /** The loop of `apply_masking`: `masked_df[field] = masked_df[field].apply(...)`
      for each entry in order; a missing column raises KeyError. */
  function ApplyRules(o: Oracle, t: Table, rules: RuleStore, st: MaskState): (p: Pass)
    ensures KeepsShape(t, p.table)
    ensures (forall i :: 0 <= i < |rules| ==> !Randomizes(rules[i].rule)) ==> SameShape(t, p.table)
    // a column no rule names is copied as it is
    ensures forall f :: f in t && f !in Fields(rules) ==> p.table[f] == t[f]
    ensures (forall i :: 0 <= i < |rules| ==> !Encrypts(rules[i].rule)) ==> p.state.reverse == st.reverse
    decreases |rules|
  {
    if |rules| == 0 then Pass(t, st, None)
    else
      var e := rules[0];
      assert Fields(rules) == [e.field] + Fields(rules[1..]);
      if e.field !in t then Pass(t, st, Some(MissingColumn(e.field)))
      else
        match MaskColumn(o, t[e.field], e.rule, e.field, st)
        case ColumnFailed(err, st1) => Pass(t, st1, Some(err))
        case ColumnDone(c, st1) =>
          assert !Encrypts(e.rule) ==> st1.reverse == st.reverse;
          var p := ApplyRules(o, t[e.field := c], rules[1..], st1);
          ShapeStep(t, e.field, c, p.table);
          p
  }

  /** Replacing one column by one that keeps its missing cells, then passing
      on, keeps the shape of the original table. */
  lemma ShapeStep(t: Table, f: string, c: Column, p: Table)
    requires f in t && NullsKept(t[f], c) && KeepsShape(t[f := c], p)
    ensures KeepsShape(t, p)
    ensures SameNulls(t[f], c) && SameShape(t[f := c], p) ==> SameShape(t, p)
  {
  }

  /** Masking one column never changes whether an entry for another column
      fails, nor its error. */
  lemma FailsAtElsewhere(o: Oracle, t: Table, f: string, c: Column, e: Entry)
    requires f in t && e.field != f
    ensures FailsAt(o, t[f := c], e) <==> FailsAt(o, t, e)
    ensures ErrorAt(t[f := c], e) == ErrorAt(t, e)
  {
  }

  /** The pass ends without an exception exactly when no entry fails on the
      loaded table; otherwise it reports the error of the first entry that
      does. The store is a dictionary, so each column is masked by one entry
      only and is still as loaded when its entry is reached. */
  lemma {:induction false} ApplyRulesError(o: Oracle, t: Table, rules: RuleStore, st: MaskState)
    requires Distinct(rules)
    ensures var p := ApplyRules(o, t, rules, st);
      && (p.error.None? <==> forall i :: 0 <= i < |rules| ==> !FailsAt(o, t, rules[i]))
      && (p.error.Some? ==>
            exists k :: (0 <= k < |rules| && FailsAt(o, t, rules[k]) &&
              p.error.value == ErrorAt(t, rules[k]) &&
              forall i :: 0 <= i < k ==> !FailsAt(o, t, rules[i])))
    decreases |rules|
  {
    if |rules| > 0 {
      var e := rules[0];
      if e.field !in t {
        assert FailsAt(o, t, rules[0]);
      } else if MaskColumn(o, t[e.field], e.rule, e.field, st).ColumnFailed? {
        assert FailsAt(o, t, rules[0]);
      } else {
        ApplyRulesErrorStep(o, t, rules, st);
      }
    }
  }

  /** The inductive step of ApplyRulesError: the first entry succeeds, so the
      pass goes on with the rest of the store on a table that differs only in
      that entry's column. */
  lemma {:induction false} ApplyRulesErrorStep(o: Oracle, t: Table, rules: RuleStore, st: MaskState)
    requires Distinct(rules) && |rules| > 0 && rules[0].field in t
    requires MaskColumn(o, t[rules[0].field], rules[0].rule, rules[0].field, st).ColumnDone?
    ensures var p := ApplyRules(o, t, rules, st);
      && (p.error.None? <==> forall i :: 0 <= i < |rules| ==> !FailsAt(o, t, rules[i]))
      && (p.error.Some? ==>
            exists k :: (0 <= k < |rules| && FailsAt(o, t, rules[k]) &&
              p.error.value == ErrorAt(t, rules[k]) &&
              forall i :: 0 <= i < k ==> !FailsAt(o, t, rules[i])))
    decreases |rules|, 0
  {
    var e := rules[0];
    var c := MaskColumn(o, t[e.field], e.rule, e.field, st);
    var t1 := t[e.field := c.col];
    var rest := rules[1..];
    assert ApplyRules(o, t, rules, st) == ApplyRules(o, t1, rest, c.state);
    DistinctTail(rules);
    ApplyRulesError(o, t1, rest, c.state);
    forall i | 0 <= i < |rest|
      ensures FailsAt(o, t, rules[i + 1]) <==> FailsAt(o, t1, rest[i])
      ensures ErrorAt(t, rules[i + 1]) == ErrorAt(t1, rest[i])
    {
      assert rest[i] == rules[i + 1];
      FailsAtElsewhere(o, t, e.field, c.col, rest[i]);
    }
    ErrorShift(o, t, t1, rules, ApplyRules(o, t1, rest, c.state).error);
  }

  /** The first entry does not fail and every later entry fails on t exactly
      when it fails on t1, with the same error; so the first failure on t1
      among the later entries is the first failure on t among all of them. */
  lemma ErrorShift(o: Oracle, t: Table, t1: Table, rules: RuleStore, err: Option<MaskError>)
    requires |rules| > 0 && !FailsAt(o, t, rules[0])
    requires forall i :: 0 <= i < |rules| - 1 ==>
      && (FailsAt(o, t, rules[i + 1]) <==> FailsAt(o, t1, rules[1..][i]))
      && ErrorAt(t, rules[i + 1]) == ErrorAt(t1, rules[1..][i])
    requires err.None? <==> forall i :: 0 <= i < |rules| - 1 ==> !FailsAt(o, t1, rules[1..][i])
    requires err.Some? ==>
      exists k :: (0 <= k < |rules| - 1 && FailsAt(o, t1, rules[1..][k]) &&
        err.value == ErrorAt(t1, rules[1..][k]) &&
        forall i :: 0 <= i < k ==> !FailsAt(o, t1, rules[1..][i]))
    ensures err.None? <==> forall i :: 0 <= i < |rules| ==> !FailsAt(o, t, rules[i])
    ensures err.Some? ==>
      exists k :: (0 <= k < |rules| && FailsAt(o, t, rules[k]) &&
        err.value == ErrorAt(t, rules[k]) &&
        forall i :: 0 <= i < k ==> !FailsAt(o, t, rules[i]))
  {
    var rest := rules[1..];
    if err.Some? {
      var k :| 0 <= k < |rest| && FailsAt(o, t1, rest[k]) &&
        err.value == ErrorAt(t1, rest[k]) &&
        forall i :: 0 <= i < k ==> !FailsAt(o, t1, rest[i]);
      forall i | 0 <= i < k + 1
        ensures !FailsAt(o, t, rules[i])
      {
        if i > 0 {
          assert !FailsAt(o, t1, rest[i - 1]);
        }
      }
      assert FailsAt(o, t, rules[k + 1]) && err.value == ErrorAt(t, rules[k + 1]);
    } else {
      forall i | 0 <= i < |rules|
        ensures !FailsAt(o, t, rules[i])
      {
        if i > 0 {
          assert !FailsAt(o, t1, rest[i - 1]);
        }
      }
    }
  }

  /** When the pass stops at entry k, what it leaves is what the entries before
      k left: the partially masked table and state are kept. */
  lemma {:induction false} ApplyStopsAtFirstFailure(o: Oracle, t: Table, rules: RuleStore, st: MaskState, k: nat)
    requires Distinct(rules)
    requires k < |rules| && FailsAt(o, t, rules[k])
    requires forall i :: 0 <= i < k ==> !FailsAt(o, t, rules[i])
    ensures var p := ApplyRules(o, t, rules, st);
      var q := ApplyRules(o, t, rules[..k], st);
      && q.error.None?
      && p.error == Some(ErrorAt(t, rules[k]))
      && p.table == q.table
      && p.state == q.state
    decreases k
  {
    var e := rules[0];
    if k == 0 {
      assert rules[..k] == [];
      if e.field in t {
        var c := MaskColumn(o, t[e.field], e.rule, e.field, st);
        assert c.ColumnFailed? && c.state == st;
        assert ApplyRules(o, t, rules, st) == Pass(t, st, Some(c.error));
      }
    } else {
      ApplyStopsStep(o, t, rules, st, k);
    }
  }

  /** The inductive step of ApplyStopsAtFirstFailure: the first entry succeeds
      and both passes continue from the same table and state. */
  lemma {:induction false} ApplyStopsStep(o: Oracle, t: Table, rules: RuleStore, st: MaskState, k: nat)
    requires Distinct(rules)
    requires 0 < k < |rules| && FailsAt(o, t, rules[k])
    requires forall i :: 0 <= i < k ==> !FailsAt(o, t, rules[i])
    ensures var p := ApplyRules(o, t, rules, st);
      var q := ApplyRules(o, t, rules[..k], st);
      && q.error.None?
      && p.error == Some(ErrorAt(t, rules[k]))
      && p.table == q.table
      && p.state == q.state
    decreases k, 0
  {
    var e := rules[0];
    assert !FailsAt(o, t, e);
    var c := MaskColumn(o, t[e.field], e.rule, e.field, st);
    assert c.ColumnDone?;
    var t1 := t[e.field := c.col];
    var rest := rules[1..];
    var front := rules[..k];
    DistinctTail(rules);
    assert front[0] == e && front[1..] == rest[..k - 1];
    assert ApplyRules(o, t, rules, st) == ApplyRules(o, t1, rest, c.state);
    assert ApplyRules(o, t, front, st) == ApplyRules(o, t1, front[1..], c.state);
    assert rest[k - 1] == rules[k];
    FailsAtElsewhere(o, t, e.field, c.col, rules[k]);
    forall i | 0 <= i < k - 1
      ensures !FailsAt(o, t1, rest[i])
    {
      assert rest[i] == rules[i + 1];
      FailsAtElsewhere(o, t, e.field, c.col, rules[i + 1]);
    }
    ApplyStopsAtFirstFailure(o, t1, rest, c.state, k - 1);
  }

  /** Rules that neither encrypt nor draw, on distinct present columns: the
      pass completes, the state is untouched, and each ruled column is masked
      cell by cell with its own rule. */
  lemma {:induction false} ApplyStatelessRules(o: Oracle, t: Table, rules: RuleStore, st: MaskState)
    requires Distinct(rules)
    requires forall i :: 0 <= i < |rules| ==> Stateless(rules[i].rule) && rules[i].field in t
    ensures var p := ApplyRules(o, t, rules, st);
      && p.error.None?
      && p.state == st
      && forall i, j :: 0 <= i < |rules| && 0 <= j < |t[rules[i].field]| ==>
           MaskValue(o, t[rules[i].field][j], rules[i].rule, rules[i].field, st) == Success((p.table[rules[i].field][j], st))
    decreases |rules|
  {
    if |rules| > 0 {
      var e := rules[0];
      MaskColumnStateless(o, t[e.field], e.rule, e.field, st);
      var c := MaskColumn(o, t[e.field], e.rule, e.field, st);
      var t1 := t[e.field := c.col];
      var rest := rules[1..];
      forall i | 0 <= i < |rest|
        ensures Stateless(rest[i].rule) && rest[i].field in t1 && rest[i].field != e.field
      {
        assert rest[i] == rules[i + 1];
      }
      ApplyStatelessRules(o, t1, rest, st);
      var p := ApplyRules(o, t1, rest, st);
      assert e.field !in Fields(rest);
      forall i, j | 0 <= i < |rules| && 0 <= j < |t[rules[i].field]|
        ensures MaskValue(o, t[rules[i].field][j], rules[i].rule, rules[i].field, st) == Success((p.table[rules[i].field][j], st))
      {
        if i > 0 {
          assert rest[i - 1] == rules[i];
        }
      }
    }
  }

  /** Masking one cell changes the reverse mapping of its own field only. */
  lemma MaskValueFrame(o: Oracle, v: Option<string>, rule: Rule, field: string, st: MaskState)
    ensures var r := MaskValue(o, v, rule, field, st);
      r.Success? ==> forall g, x :: g != field ==> Lookup(r.value.1.reverse, g, x) == Lookup(st.reverse, g, x)
  {
    if v.Some? && Encrypts(rule) && o.fernetKeyValid(KeyOf(rule.options)) {
      EncryptionRecordsReverse(o, v.value, rule, field, st);
    }
  }

  /** Masking a column changes the reverse mapping of its own field only. */
  lemma {:induction false} MaskColumnFrame(o: Oracle, col: Column, rule: Rule, field: string, st: MaskState)
    ensures var r := MaskColumn(o, col, rule, field, st);
      forall g, x :: g != field ==> Lookup(r.state.reverse, g, x) == Lookup(st.reverse, g, x)
    decreases |col|
  {
    if |col| > 0 {
      var m := MaskValue(o, col[0], rule, field, st);
      MaskValueFrame(o, col[0], rule, field, st);
      if m.Success? {
        MaskColumnFrame(o, col[1..], rule, field, m.value.1);
      }
    }
  }

  /** A pass over entries that do not name field leaves that field's reverse
      mapping as it was. */
  lemma {:induction false} ApplyRulesFieldFrame(o: Oracle, t: Table, rules: RuleStore, st: MaskState, field: string)
    requires field !in Fields(rules)
    ensures forall x :: Lookup(ApplyRules(o, t, rules, st).state.reverse, field, x) == Lookup(st.reverse, field, x)
    decreases |rules|
  {
    if |rules| > 0 {
      var e := rules[0];
      assert Fields(rules) == [e.field] + Fields(rules[1..]);
      if e.field in t {
        var c := MaskColumn(o, t[e.field], e.rule, e.field, st);
        MaskColumnFrame(o, t[e.field], e.rule, e.field, st);
        if c.ColumnDone? {
          ApplyRulesFieldFrame(o, t[e.field := c.col], rules[1..], c.state, field);
        }
      }
    }
  }

  /** Running a + b is running a, then, unless a failed, running b on what a
      left behind. */
  lemma {:induction false} ApplyRulesAppend(o: Oracle, t: Table, a: RuleStore, b: RuleStore, st: MaskState)
    ensures ApplyRules(o, t, a + b, st) ==
      var p := ApplyRules(o, t, a, st);
      if p.error.Some? then p else ApplyRules(o, p.table, b, p.state)
    decreases |a|
  {
    if |a| == 0 {
      assert a + b == b;
    } else {
      var e := a[0];
      assert (a + b)[0] == e && (a + b)[1..] == a[1..] + b;
      if e.field in t {
        var c := MaskColumn(o, t[e.field], e.rule, e.field, st);
        if c.ColumnDone? {
          ApplyRulesAppend(o, t[e.field := c.col], a[1..], b, c.state);
        }
      }
    }
  }

  /** In a pass that completes, entry k masks its column of the loaded table
      on the state the entries before it left, and that column is not touched
      again: the pass goes on from there with the remaining entries. */
  lemma ApplyRulesColumn(o: Oracle, t: Table, rules: RuleStore, st: MaskState, k: nat)
    requires Distinct(rules) && k < |rules|
    requires ApplyRules(o, t, rules, st).error.None?
    ensures var f := rules[k].field;
      var q := ApplyRules(o, t, rules[..k], st);
      && f in t
      && q.error.None?
      && var c := MaskColumn(o, t[f], rules[k].rule, f, q.state);
      && c.ColumnDone?
      && ApplyRules(o, t, rules, st) == ApplyRules(o, q.table[f := c.col], rules[k + 1..], c.state)
      && ApplyRules(o, t, rules, st).table[f] == c.col
  {
    var f := rules[k].field;
    var front := rules[..k];
    var back := rules[k..];
    assert rules == front + back;
    ApplyRulesAppend(o, t, front, back, st);
    var q := ApplyRules(o, t, front, st);
    assert q.error.None?;
    FieldNotElsewhere(rules, k);
    assert back[0] == rules[k] && back[1..] == rules[k + 1..];
  }

  /** In a pass that completes, an encryption rule with a valid key leaves each
      present cell's output mapped back to that cell's original, unless a later
      row of the same column produced the same output. */
  lemma ApplyRulesReversible(o: Oracle, t: Table, rules: RuleStore, st: MaskState, k: nat)
    requires Distinct(rules) && k < |rules|
    requires ApplyRules(o, t, rules, st).error.None?
    requires Encrypts(rules[k].rule) && o.fernetKeyValid(KeyOf(rules[k].rule.options))
    ensures var f := rules[k].field;
      var p := ApplyRules(o, t, rules, st);
      && f in t && f in p.table
      && SameNulls(t[f], p.table[f])
      && forall i ::
           (0 <= i < |t[f]| && t[f][i].Some? && (forall j :: i < j < |t[f]| ==> p.table[f][j] != p.table[f][i])) ==>
             Lookup(p.state.reverse, f, p.table[f][i].value) == t[f][i]
  {
    var f := rules[k].field;
    var rule := rules[k].rule;
    ApplyRulesColumn(o, t, rules, st, k);
    var q := ApplyRules(o, t, rules[..k], st);
    var c := MaskColumn(o, t[f], rule, f, q.state);
    EncryptedColumnReversible(o, t[f], rule, f, q.state);
    FieldNotElsewhere(rules, k);
    ApplyRulesFieldFrame(o, q.table[f := c.col], rules[k + 1..], c.state, f);
  }

  /** An encryption entry without a key stops the pass exactly when its column
      is missing or holds a value. */
  lemma MissingKeyEntryFails(o: Oracle, t: Table, e: Entry)
    requires KeysWellFormed(o)
    requires Encrypts(e.rule) && e.rule.options.key.None?
    ensures FailsAt(o, t, e) <==> e.field !in t || HasValue(t[e.field])
    ensures e.field in t && HasValue(t[e.field]) ==> ErrorAt(t, e) == InvalidKey("")
  {
  }

  /** The application's state that `apply_masking` and `clear_rules` touch. */
  datatype Session = Session(df: Option<Table>, masked: Option<Table>, rules: RuleStore, state: MaskState)

  /** The message `apply_masking` ends with. */
  datatype ApplyStatus =
    | NoData             // "Please load data first"
    | NoRules            // "Please define masking rules first"
    | Completed          // "Data masking completed!"
    | Failed(error: MaskError)  // "Masking failed: ..."

  /** `apply_masking`: check there is data and at least one rule, copy the
      table into `masked_df`, run the pass. The copy is stored before the pass
      starts, so a failed pass leaves the partially masked copy behind. */
  function ApplyMasking(o: Oracle, s: Session): (r: (Session, ApplyStatus))
    ensures s.df.None? ==> r == (s, NoData)
    ensures s.df.Some? && |s.rules| == 0 ==> r == (s, NoRules)
    // the loaded table and the rules are only read
    ensures r.0.df == s.df && r.0.rules == s.rules
    // the masked copy has the loaded columns, each missing cell still missing;
    // without number randomisation no present cell goes missing either
    ensures r.1.Completed? || r.1.Failed? ==> r.0.masked.Some? && KeepsShape(s.df.value, r.0.masked.value)
    ensures (r.1.Completed? || r.1.Failed?) && (forall i :: 0 <= i < |s.rules| ==> !Randomizes(s.rules[i].rule)) ==>
      SameShape(s.df.value, r.0.masked.value)
    ensures r.1.Completed? || r.1.Failed? ==>
      forall f :: f in s.df.value && f !in Fields(s.rules) ==> r.0.masked.value[f] == s.df.value[f]
  {
    match s.df
    case None => (s, NoData)
    case Some(df) =>
      if |s.rules| == 0 then (s, NoRules)
      else
        var p := ApplyRules(o, df, s.rules, s.state);
        var s1 := s.(masked := Some(p.table), state := p.state);
        match p.error
        case None => (s1, Completed)
        case Some(e) => (s1, Failed(e))
  }

  /** The pass fails exactly when some rule fails on the loaded table, and
      reports the first such rule's error. */
  lemma ApplyMaskingFailsIff(o: Oracle, s: Session)
    requires s.df.Some? && |s.rules| > 0 && Distinct(s.rules)
    ensures var r := ApplyMasking(o, s);
      && (r.1.Failed? <==> exists i :: 0 <= i < |s.rules| && FailsAt(o, s.df.value, s.rules[i]))
      && (r.1.Failed? ==>
            exists k :: (0 <= k < |s.rules| && r.1.error == ErrorAt(s.df.value, s.rules[k]) &&
              forall i :: 0 <= i < k ==> !FailsAt(o, s.df.value, s.rules[i])))
  {
    ApplyRulesError(o, s.df.value, s.rules, s.state);
  }

  /** A masking run with data and rules stores the pass's table and state, and
      completes exactly when the pass raises nothing. */
  lemma ApplyMaskingRunsPass(o: Oracle, s: Session)
    requires s.df.Some? && |s.rules| > 0
    ensures var p := ApplyRules(o, s.df.value, s.rules, s.state);
      var r := ApplyMasking(o, s);
      && r.0.masked == Some(p.table)
      && r.0.state == p.state
      && (r.1.Completed? <==> p.error.None?)
  {
  }

  /** A completed masking run masks each ruled column of the loaded table, in
      rule order, on the state the earlier rules left. */
  lemma ApplyMaskingMasksColumns(o: Oracle, s: Session, k: nat)
    requires s.df.Some? && Distinct(s.rules) && k < |s.rules|
    requires ApplyMasking(o, s).1.Completed?
    ensures var r := ApplyMasking(o, s);
      var df := s.df.value;
      var e := s.rules[k];
      && e.field in df && r.0.masked.Some? && e.field in r.0.masked.value
      && var c := MaskColumn(o, df[e.field], e.rule, e.field, ApplyRules(o, df, s.rules[..k], s.state).state);
      && c.ColumnDone?
      && r.0.masked.value[e.field] == c.col
  {
    ApplyMaskingRunsPass(o, s);
    ApplyRulesColumn(o, s.df.value, s.rules, s.state, k);
  }

  /** After a completed masking run, an encryption rule with a valid key leaves
      each present cell's output mapped back to its original, unless a later
      row of the same column produced the same output. */
  lemma ApplyMaskingReversible(o: Oracle, s: Session, k: nat)
    requires s.df.Some? && Distinct(s.rules) && k < |s.rules|
    requires ApplyMasking(o, s).1.Completed?
    requires Encrypts(s.rules[k].rule) && o.fernetKeyValid(KeyOf(s.rules[k].rule.options))
    ensures var r := ApplyMasking(o, s);
      var f := s.rules[k].field;
      && f in s.df.value && r.0.masked.Some? && f in r.0.masked.value
      && var col := s.df.value[f];
      && var out := r.0.masked.value[f];
      && SameNulls(col, out)
      && forall i ::
           (0 <= i < |col| && col[i].Some? && (forall j :: i < j < |col| ==> out[j] != out[i])) ==>
             Lookup(r.0.state.reverse, f, out[i].value) == col[i]
  {
    ApplyMaskingRunsPass(o, s);
    ApplyRulesReversible(o, s.df.value, s.rules, s.state, k);
  }

  /** `clear_rules`: after a confirmed prompt the rule store is emptied;
      nothing else changes, and a declined prompt changes nothing. */
  function ClearRules(s: Session, confirmed: bool): (r: Session)
    ensures confirmed ==> |r.rules| == 0
    ensures !confirmed ==> r == s
    ensures r.df == s.df && r.masked == s.masked && r.state == s.state
  {
    if confirmed then s.(rules := []) else s
  }

  /** With the rules cleared, applying masking is refused and nothing changes. */
  lemma ClearedRulesRefuseApply(o: Oracle, s: Session)
    requires s.df.Some?
    ensures ApplyMasking(o, ClearRules(s, true)) == (ClearRules(s, true), NoRules)
  {
  }
}

=== FILE: externals.dfy ===
/**
 The collaborators the masking code calls but does not define: the Fernet
 cipher, URL-safe base64, SHA-256, the Faker generators, date parsing and the
 float parser with its random noise. Each is a field of an `Oracle`, so every
 property of the model holds whatever these functions compute. Randomness is an
 explicit draw number: each randomised call receives the current draw and the
 caller advances it.
 */
module Externals {
  import opened Wrappers

  type Byte = b: int | 0 <= b < 256

  /** A SHA-256 digest: 32 bytes. */
  type Digest = d: seq<Byte> | |d| == 32 witness seq(32, _ => 0)

  /** The Faker generator chosen for a fake replacement. */
  datatype FakeKind =
    | FakeEmail       // faker.email()
    | FakePhone       // faker.phone_number()
    | FakeFirstName   // faker.first_name()
    | FakeLastName    // faker.last_name()
    | FakeFullName    // faker.name()
    | FakeAddress     // faker.address()
    | FakeSsn         // faker.ssn()
    | FakeCompany     // faker.company()
    | FakeWord        // faker.word()

  datatype Oracle = Oracle(
    /** `Fernet(key)` does not raise: key is 32 bytes of URL-safe base64. */
    fernetKeyValid: string -> bool,
    /** The text of `Fernet(key).encrypt(plain)` for a given draw of IV and clock. */
    fernetToken: (string, string, nat) -> string,
    /** `base64.urlsafe_b64encode(t).decode()` */
    base64Url: string -> string,
    /** `hashlib.sha256(s.encode()).digest()` */
    sha256: string -> Digest,
    /** The value a Faker generator yields on a given draw. */
    fake: (FakeKind, nat) -> string,
    /** `(pd.to_datetime(v) + pd.Timedelta(days=n)).strftime('%Y-%m-%d')`, None when it raises. */
    shiftDate: (string, int) -> Option<string>,
    /** `float(v)` does not raise. */
    parsesAsFloat: string -> bool,
    /** The text of `round(num + noise, 2)` for a given draw of the noise; None
        when the result is NaN (from the text "nan", or from an infinite value
        whose noise cancels it), which pandas reads back as a missing value. */
    noisyNumber: (string, nat) -> Option<string>
  )

  /** What every real Fernet implementation guarantees: the empty key is not
      32 bytes of base64, so `Fernet(b'')` raises. */
  predicate KeysWellFormed(o: Oracle)
  {
    !o.fernetKeyValid("")
  }
}

=== FILE: fake_data.dfy ===
/**
 The deterministic half of "Fake Data Replacement": which Faker generator a
 field gets, chosen from the lower-cased field name by substring tests in a
 fixed priority order. The generated values themselves are external.
 */
module FakeData {
  import opened PyStr
  import opened Externals

  /** The generator for a field, as the if-chain of the source chooses it. An
      e-mail keyword wins over every other, and a first or last name is only
      chosen for a field that names a name. */
  function FakeKindFor(field: string): (k: FakeKind)
    ensures k == FakeEmail <==> Contains(Lower(field), "email")
    ensures k == FakeFirstName || k == FakeLastName ==> Contains(Lower(field), "name")
  {
    var f := Lower(field);
    if Contains(f, "email") then FakeEmail
    else if Contains(f, "phone") then FakePhone
    else if Contains(f, "name") then
      (if Contains(f, "first") then FakeFirstName
       else if Contains(f, "last") then FakeLastName
       else FakeFullName)
    else if Contains(f, "address") then FakeAddress
    else if Contains(f, "ssn") then FakeSsn
    else if Contains(f, "company") then FakeCompany
    else FakeWord
  }

  /** The keyword tests in priority order, each with the generator it selects. */
  const Priority: seq<(string, FakeKind)> := [
    ("email", FakeEmail),
    ("phone", FakePhone),
    ("name", FakeFullName),
    ("address", FakeAddress),
    ("ssn", FakeSsn),
    ("company", FakeCompany)
  ]

  /** The generator of the first keyword of the table found in f; the generic
      word when none is. */
  function FirstMatch(f: string, table: seq<(string, FakeKind)>): FakeKind
  {
    if |table| == 0 then FakeWord
    else if Contains(f, table[0].0) then table[0].1
    else FirstMatch(f, table[1..])
  }

  /** A name field is narrowed to a first or last name by a second test. */
  function NarrowName(f: string, k: FakeKind): FakeKind
  {
    if k != FakeFullName then k
    else if Contains(f, "first") then FakeFirstName
    else if Contains(f, "last") then FakeLastName
    else FakeFullName
  }

  /** The chosen generator is the first keyword match in priority order, with
      the name refinement applied. */
  lemma FakeKindIsFirstMatch(field: string)
    ensures FakeKindFor(field) == NarrowName(Lower(field), FirstMatch(Lower(field), Priority))
  {
    var f := Lower(field);
    var t1 := Priority[1..];
    var t2 := t1[1..];
    var t3 := t2[1..];
    var t4 := t3[1..];
    var t5 := t4[1..];
    assert Priority[0] == ("email", FakeEmail) && t1[0] == ("phone", FakePhone);
    assert t2[0] == ("name", FakeFullName) && t3[0] == ("address", FakeAddress);
    assert t4[0] == ("ssn", FakeSsn) && t5 == [("company", FakeCompany)];
    assert FirstMatch(f, t5) == (if Contains(f, "company") then FakeCompany else FakeWord);
    assert FirstMatch(f, t4) == (if Contains(f, "ssn") then FakeSsn else FirstMatch(f, t5));
    assert FirstMatch(f, t3) == (if Contains(f, "address") then FakeAddress else FirstMatch(f, t4));
    assert FirstMatch(f, t2) == (if Contains(f, "name") then FakeFullName else FirstMatch(f, t3));
    assert FirstMatch(f, t1) == (if Contains(f, "phone") then FakePhone else FirstMatch(f, t2));
    assert FirstMatch(f, Priority) == (if Contains(f, "email") then FakeEmail else FirstMatch(f, t1));
  }

  /** The generic word is used exactly when the lower-cased name contains none
      of the keywords. */
  lemma FakeWordIffNoKeyword(field: string)
    ensures FakeKindFor(field) == FakeWord <==>
      forall i :: 0 <= i < |Priority| ==> !Contains(Lower(field), Priority[i].0)
  {
    var f := Lower(field);
    if FakeKindFor(field) == FakeWord {
      forall i | 0 <= i < |Priority|
        ensures !Contains(f, Priority[i].0)
      {
        assert Priority[i].0 in ["email", "phone", "name", "address", "ssn", "company"];
      }
    } else {
      if Contains(f, "email") { assert Contains(f, Priority[0].0); }
      else if Contains(f, "phone") { assert Contains(f, Priority[1].0); }
      else if Contains(f, "name") { assert Contains(f, Priority[2].0); }
      else if Contains(f, "address") { assert Contains(f, Priority[3].0); }
      else if Contains(f, "ssn") { assert Contains(f, Priority[4].0); }
      else { assert Contains(f, Priority[5].0); }
    }
  }

  /** The choice ignores letter case. */
  lemma FakeKindIgnoresCase(field: string)
    ensures FakeKindFor(Lower(field)) == FakeKindFor(field)
  {
    LowerIdempotent(field);
  }
}

=== FILE: masking.dfy ===
/**
 `mask_value`: one cell of a column, one rule and the field name in; one masked
 cell out, together with the updated reverse mapping and draw counter, or the
 exception the Fernet constructor raises for a malformed key.
 */
module Masking {
  import opened Wrappers
  import opened Externals
  import opened Rules
  import opened ReverseStore
  import opened ValueMasks
  import opened FakeData

  /** The state `mask_value` reads and writes besides its arguments: the reverse
      mapping, and the number of random draws consumed so far. */
  datatype MaskState = MaskState(reverse: ReverseMap, draws: nat)

  /** The exceptions that reach `apply_masking`. */
  datatype MaskError =
    | InvalidKey(key: string)       // `Fernet(key)` raised
    | MissingColumn(field: string)  // `masked_df[field]` raised KeyError

  /** `options.get('keep_first', 0)` */
  function KeepFirstOf(o: Options): int
  {
    match o.keepFirst
    case Some(n) => n
    case None => 0
  }

  /** `options.get('keep_last', 4)` */
  function KeepLastOf(o: Options): int
  {
    match o.keepLast
    case Some(n) => n
    case None => 4
  }

  /** `options.get('key', '')` */
  function KeyOf(o: Options): string
  {
    match o.key
    case Some(k) => k
    case None => ""
  }

  /** `options.get('shift_days', 30)` */
  function ShiftDaysOf(o: Options): int
  {
    match o.shiftDays
    case Some(n) => n
    case None => 30
  }

  /** The rule is one of the two encryption strategies. */
  predicate Encrypts(rule: Rule)
  {
    StrategyOf(rule.kind) == Some(FormatPreservingEncryption) ||
    StrategyOf(rule.kind) == Some(ReversibleWithKey)
  }

  /** The rule is Number Randomization, the one strategy that can turn a
      present value into a missing one (a NaN result). */
  predicate Randomizes(rule: Rule)
  {
    StrategyOf(rule.kind) == Some(NumberRandomization)
  }

  /** The rule neither draws randomness nor writes the reverse mapping. */
  predicate Stateless(rule: Rule)
  {
    match StrategyOf(rule.kind)
    case None => true
    case Some(k) =>
      k != FormatPreservingEncryption && k != ReversibleWithKey &&
      k != FakeDataReplacement && k != NumberRandomization
  }

  /** The two encryption branches: build the cipher (raising on a bad key),
      encrypt on the current draw, optionally base64-encode the token, and
      record the output against the original text. */
  function Encrypt(o: Oracle, key: string, s: string, field: string, st: MaskState, encode: bool)
    : (r: Result<(Option<string>, MaskState), MaskError>)
    // the Fernet constructor rejects exactly the malformed keys, before anything is recorded
    ensures r.Failure? <==> !o.fernetKeyValid(key)
    ensures r.Failure? ==> r.error == InvalidKey(key)
    ensures r.Success? ==>
      && r.value.0.Some?
      && var token := o.fernetToken(key, s, st.draws);
      && r.value.0.value == (if encode then o.base64Url(token) else token)
      // the output can be looked up under the field to give back the original text
      && Lookup(r.value.1.reverse, field, r.value.0.value) == Some(s)
      && (forall g, k :: (g, k) != (field, r.value.0.value) ==>
            Lookup(r.value.1.reverse, g, k) == Lookup(st.reverse, g, k))
      && r.value.1.draws == st.draws + 1
  {
    if !o.fernetKeyValid(key) then Failure(InvalidKey(key))
    else
      var token := o.fernetToken(key, s, st.draws);
      var out := if encode then o.base64Url(token) else token;
      Success((Some(out), MaskState(Record(st.reverse, field, out, s), st.draws + 1)))
  }

  /** `mask_value(value, rule, field_name)`, with the value in its text form. */
  function MaskValue(o: Oracle, value: Option<string>, rule: Rule, field: string, st: MaskState)
    : (r: Result<(Option<string>, MaskState), MaskError>)
    // null cells pass through every rule, untouched and without side effects
    ensures value.None? ==> r == Success((value, st))
    // a type string that names no strategy leaves the value as it is
    ensures StrategyOf(rule.kind).None? ==> r == Success((value, st))
    // the only exception is a malformed key for an encryption rule
    ensures r.Failure? <==> value.Some? && Encrypts(rule) && !o.fernetKeyValid(KeyOf(rule.options))
    ensures r.Failure? ==> r.error == InvalidKey(KeyOf(rule.options))
    // a present value stays present, except that number randomisation may yield NaN
    ensures r.Success? && value.Some? && !Randomizes(rule) ==> r.value.0.Some?
    ensures r.Success? && Stateless(rule) ==> r.value.1 == st
    ensures r.Success? && !Encrypts(rule) ==> r.value.1.reverse == st.reverse
  {
    match value
    case None => Success((value, st))
    case Some(s) =>
      match StrategyOf(rule.kind)
      case None => Success((value, st))
      case Some(FullMasking) => Success((Some(FullMask(s)), st))
      case Some(PartialMasking) =>
        Success((Some(PartialMask(s, KeepFirstOf(rule.options), KeepLastOf(rule.options))), st))
      case Some(FormatPreservingEncryption) => Encrypt(o, KeyOf(rule.options), s, field, st, true)
      case Some(FakeDataReplacement) =>
        Success((Some(o.fake(FakeKindFor(field), st.draws)), st.(draws := st.draws + 1)))
      case Some(HashOneWay) => Success((Some(HashMask(o.sha256(s))), st))
      case Some(ReversibleWithKey) => Encrypt(o, KeyOf(rule.options), s, field, st, false)
      case Some(EmailMasking) => Success((Some(EmailMask(s)), st))
      case Some(PhoneMasking) => Success((Some(PhoneMask(s)), st))
      case Some(SsnMasking) => Success((Some(SsnMask(s)), st))
      case Some(DateShifting) =>
        (match o.shiftDate(s, ShiftDaysOf(rule.options))
         case None => Success((value, st))
         case Some(d) => Success((Some(d), st)))
      case Some(NumberRandomization) =>
        if o.parsesAsFloat(s) then Success((o.noisyNumber(s, st.draws), st.(draws := st.draws + 1)))
        else Success((value, st))
  }

  /** An encryption rule with a well-formed key returns the (possibly
      base64-encoded) token and files the original text under it; nothing else
      in the reverse mapping changes. */
  lemma EncryptionRecordsReverse(o: Oracle, s: string, rule: Rule, field: string, st: MaskState)
    requires Encrypts(rule) && o.fernetKeyValid(KeyOf(rule.options))
    ensures var r := MaskValue(o, Some(s), rule, field, st);
      && r.Success?
      && r.value.0.Some?
      && var out := r.value.0.value;
      && var token := o.fernetToken(KeyOf(rule.options), s, st.draws);
      && out == (if StrategyOf(rule.kind) == Some(FormatPreservingEncryption) then o.base64Url(token) else token)
      && Lookup(r.value.1.reverse, field, out) == Some(s)
      && (forall g, k :: (g, k) != (field, out) ==> Lookup(r.value.1.reverse, g, k) == Lookup(st.reverse, g, k))
      && r.value.1.draws == st.draws + 1
  {
  }

  /** A rule without options masks partially with the defaults keep_first = 0,
      keep_last = 4, as imported rules may. */
  lemma PartialDefaults(o: Oracle, s: string, field: string, st: MaskState)
    ensures MaskValue(o, Some(s), Rule(Label(PartialMasking), NoOptions), field, st)
         == Success((Some(PartialMask(s, 0, 4)), st))
  {
  }

  /** For every rule that neither encrypts nor draws randomness, the masked
      value depends on the value and the rule only: not on the field name or
      the state. */
  lemma StatelessIsPure(o: Oracle, v: Option<string>, rule: Rule, f1: string, f2: string, st1: MaskState, st2: MaskState)
    requires Stateless(rule)
    ensures MaskValue(o, v, rule, f1, st1).Success?
    ensures MaskValue(o, v, rule, f1, st1).value.0 == MaskValue(o, v, rule, f2, st2).value.0
  {
  }

  /** The fake value comes from the generator chosen by the field name, on the
      current draw, which is then consumed. */
  lemma FakeUsesFieldCategory(o: Oracle, s: string, rule: Rule, field: string, st: MaskState)
    requires StrategyOf(rule.kind) == Some(FakeDataReplacement)
    ensures MaskValue(o, Some(s), rule, field, st)
         == Success((Some(o.fake(FakeKindFor(field), st.draws)), MaskState(st.reverse, st.draws + 1)))
  {
  }

  /** Number randomisation of a parsable value returns the noisy number on the
      current draw, or a missing value when that number is NaN, and consumes
      the draw. */
  lemma RandomizationResult(o: Oracle, s: string, rule: Rule, field: string, st: MaskState)
    requires Randomizes(rule) && o.parsesAsFloat(s)
    ensures MaskValue(o, Some(s), rule, field, st)
         == Success((o.noisyNumber(s, st.draws), MaskState(st.reverse, st.draws + 1)))
    ensures o.noisyNumber(s, st.draws).None? ==> MaskValue(o, Some(s), rule, field, st).value.0.None?
  {
  }

  /** An encryption rule without a key, as an imported rule may be, reads the
      key as `''`, so it raises on every present value. */
  lemma MissingKeyRaises(o: Oracle, s: string, rule: Rule, field: string, st: MaskState)
    requires KeysWellFormed(o)
    requires Encrypts(rule) && rule.options.key.None?
    ensures MaskValue(o, Some(s), rule, field, st) == Failure(InvalidKey(""))
  {
  }

  /** Date shifting and number randomisation fall back to the unchanged value
      when parsing fails. */
  lemma ParseFailureKeepsValue(o: Oracle, s: string, rule: Rule, field: string, st: MaskState)
    requires
      || (StrategyOf(rule.kind) == Some(DateShifting) && o.shiftDate(s, ShiftDaysOf(rule.options)).None?)
      || (StrategyOf(rule.kind) == Some(NumberRandomization) && !o.parsesAsFloat(s))
    ensures MaskValue(o, Some(s), rule, field, st) == Success((Some(s), st))
  {
  }
}

=== FILE: policy.dfy ===
/**
 The rule-store edits behind the "Add Rule" and "Remove Rule" buttons: the
 selected field names and the values of the option widgets come in, the
 updated `masking_rules` and the message shown to the user come out.
 */
module Policy {
  import opened Wrappers
  import opened Rules
  import opened Masking

  /** The values read from the option widgets when "Add Rule" is pressed. */
  datatype RuleForm = RuleForm(kind: string, keepFirst: int, keepLast: int, key: string, shiftDays: int)

  /** Which message the edit ends with. */
  datatype EditOutcome =
    | NothingSelected  // "Please select at least one field"
    | KeyMissing       // "Please generate or enter an encryption key"
    | Applied          // "Added masking rules ..." / "Removed selected masking rules"

  /** The types whose rule carries the encryption key. */
  predicate NeedsKey(kind: string)
  {
    kind == Label(ReversibleWithKey) || kind == Label(FormatPreservingEncryption)
  }

  /** The rule dictionary built for one field: the type, and the options the
      type uses. */
  function RuleFromForm(form: RuleForm): (r: Rule)
    ensures r.kind == form.kind
    // only the options the type reads are set
    ensures r.options.keepFirst.Some? || r.options.keepLast.Some? ==> form.kind == Label(PartialMasking)
    ensures r.options.key.Some? ==> NeedsKey(form.kind)
    ensures r.options.shiftDays.Some? ==> form.kind == Label(DateShifting)
  {
    if form.kind == Label(PartialMasking) then
      Rule(form.kind, Options(Some(form.keepFirst), Some(form.keepLast), None, None))
    else if NeedsKey(form.kind) then
      Rule(form.kind, Options(None, None, Some(form.key), None))
    else if form.kind == Label(DateShifting) then
      Rule(form.kind, Options(None, None, None, Some(form.shiftDays)))
    else
      Rule(form.kind, NoOptions)
  }

  /** A rule added through the form masks with the options typed into the form:
      partial masking uses the form's keep counts, the encryption types use the
      form's key, date shifting uses the form's day count. */
  lemma FormOptionsReachMask(form: RuleForm)
    ensures var opts := RuleFromForm(form).options;
      && (form.kind == Label(PartialMasking) ==>
            KeepFirstOf(opts) == form.keepFirst && KeepLastOf(opts) == form.keepLast)
      && (NeedsKey(form.kind) ==> KeyOf(opts) == form.key && Encrypts(RuleFromForm(form)))
      && (form.kind == Label(DateShifting) ==> ShiftDaysOf(opts) == form.shiftDays)
  {
  }

  /** Every field of sel has rule in r; every other field has what it had in rules. */
  ghost predicate AddedFor(r: RuleStore, rules: RuleStore, sel: seq<string>, rule: Rule)
  {
    forall g :: Get(r, g) == if g in sel then Some(rule) else Get(rules, g)
  }

  /** The fields of sel that are neither in known nor selected earlier, in
      selection order: the fields a run of dictionary assignments appends. */
  function NewFields(known: seq<string>, sel: seq<string>): seq<string>
  {
    if |sel| == 0 then []
    else
      var f := sel[|sel| - 1];
      var earlier := sel[..|sel| - 1];
      NewFields(known, earlier) + (if f in known || f in earlier then [] else [f])
  }

  /** A field is new exactly when it is selected and was not there before. */
  lemma {:induction false} NewFieldsMembers(known: seq<string>, sel: seq<string>)
    ensures forall f :: f in NewFields(known, sel) <==> f in sel && f !in known
    decreases |sel|
  {
    if |sel| > 0 {
      var earlier := sel[..|sel| - 1];
      NewFieldsMembers(known, earlier);
      assert sel == earlier + [sel[|sel| - 1]];
    }
  }

  /** Worked example: new fields come in selection order, once each, after the
      fields already there. */
  lemma NewFieldsExample()
    ensures NewFields([], ["a", "b", "a"]) == ["a", "b"]
    ensures NewFields(["b"], ["a", "b"]) == ["a"]
  {
    assert ["a", "b", "a"][..2] == ["a", "b"];
    assert ["a", "b"][..1] == ["a"];
    assert ["a"][..0] == [];
  }

  /** What the add loop keeps: AddedFor, the old fields followed by the new
      ones in selection order, and no repeated field when there was none. */
  ghost predicate AddInvariant(r: RuleStore, rules: RuleStore, sel: seq<string>, rule: Rule)
  {
    && AddedFor(r, rules, sel, rule)
    && Fields(r) == Fields(rules) + NewFields(Fields(rules), sel)
    && (Distinct(rules) ==> Distinct(r))
  }

  /** One more Put extends the add loop's invariant by the next selected field. */
  lemma AddStep(r: RuleStore, rules: RuleStore, selected: seq<string>, i: nat, rule: Rule)
    requires i < |selected| && AddInvariant(r, rules, selected[..i], rule)
    ensures AddInvariant(Put(r, selected[i], rule), rules, selected[..i + 1], rule)
  {
    var sel := selected[..i];
    var field := selected[i];
    assert selected[..i + 1] == sel + [field];
    PutNewField(r, Fields(rules), sel, field, rule);
    if Distinct(r) {
      PutDistinct(r, field, rule);
    }
  }

  /** One more Put appends the field exactly when it is new. */
  lemma PutNewField(r: RuleStore, known: seq<string>, sel: seq<string>, field: string, rule: Rule)
    requires Fields(r) == known + NewFields(known, sel)
    ensures Fields(Put(r, field, rule)) == known + NewFields(known, sel + [field])
  {
    PutFields(r, field, rule);
    NewFieldsMembers(known, sel);
    assert (sel + [field])[..|sel|] == sel;
    assert field in Fields(r) <==> field in known || field in sel;
  }

  /** `self.masking_rules[field] = rule` for the next selected field. */
  method PutNext(rules: RuleStore, selected: seq<string>, i: nat, r: RuleStore, rule: Rule) returns (r': RuleStore)
    requires i < |selected| && AddInvariant(r, rules, selected[..i], rule)
    ensures AddInvariant(r', rules, selected[..i + 1], rule)
  {
    AddStep(r, rules, selected, i, rule);
    r' := Put(r, selected[i], rule);
  }

  /** The loop of `add_masking_rule` once the key test has passed: every
      selected field gets rule, in selection order. */
  method PutAll(rules: RuleStore, selected: seq<string>, rule: Rule) returns (r: RuleStore)
    ensures AddInvariant(r, rules, selected, rule)
  {
    r := rules;
    var i := 0;
    while i < |selected|
      invariant 0 <= i <= |selected|
      invariant AddInvariant(r, rules, selected[..i], rule)
    {
      r := PutNext(rules, selected, i, r, rule);
      i := i + 1;
    }
    assert selected[..i] == selected;
  }

  /** `add_masking_rule`: for each selected field, build the rule and store it,
      overwriting an earlier rule for that field in place. The key test sits
      inside the loop in the source, but it does not depend on the field, so it
      fails on the first field, before anything is stored, or never. */
  method AddMaskingRule(rules: RuleStore, selected: seq<string>, form: RuleForm)
    returns (r: RuleStore, outcome: EditOutcome)
    ensures |selected| == 0 ==> outcome == NothingSelected
    ensures |selected| > 0 && NeedsKey(form.kind) && form.key == "" ==> outcome == KeyMissing
    ensures outcome == Applied <==> |selected| > 0 && !(NeedsKey(form.kind) && form.key == "")
    ensures outcome != Applied ==> r == rules
    // every selected field now has the form's rule; every other field keeps its own
    ensures outcome == Applied ==>
      forall g :: Get(r, g) == if g in selected then Some(RuleFromForm(form)) else Get(rules, g)
    // fields already present keep their positions; new ones follow in selection order
    ensures Fields(rules) <= Fields(r)
    ensures outcome == Applied ==> Fields(r) == Fields(rules) + NewFields(Fields(rules), selected)
    ensures Distinct(rules) ==> Distinct(r)
  {
    if |selected| == 0 {
      return rules, NothingSelected;
    }
    if NeedsKey(form.kind) && form.key == "" {
      return rules, KeyMissing;
    }
    r := PutAll(rules, selected, RuleFromForm(form));
    outcome := Applied;
  }

  /** The entries of rules whose field is not selected, in their order: what
      removing the selected fields from the dictionary leaves. */
  function Unselected(rules: RuleStore, sel: seq<string>): RuleStore
  {
    if |rules| == 0 then []
    else (if rules[0].field in sel then [] else [rules[0]]) + Unselected(rules[1..], sel)
  }

  /** With nothing selected, every entry stays. */
  lemma {:induction false} UnselectedNone(rules: RuleStore)
    ensures Unselected(rules, []) == rules
    decreases |rules|
  {
    if |rules| > 0 {
      UnselectedNone(rules[1..]);
    }
  }

  /** Selecting one more field removes exactly that field's entries from what
      was left, as `del` does. */
  lemma {:induction false} UnselectedExtend(rules: RuleStore, sel: seq<string>, field: string)
    ensures Unselected(rules, sel + [field]) == Delete(Unselected(rules, sel), field)
    decreases |rules|
  {
    if |rules| > 0 {
      var e := rules[0];
      var rest := rules[1..];
      var tail := Unselected(rest, sel);
      UnselectedExtend(rest, sel, field);
      assert (e.field in sel + [field]) == (e.field in sel || e.field == field);
      if e.field in sel {
        assert Unselected(rules, sel) == tail;
        assert Unselected(rules, sel + [field]) == Unselected(rest, sel + [field]);
      } else {
        var u := [e] + tail;
        assert Unselected(rules, sel) == u;
        assert u[0] == e && u[1..] == tail;
        if e.field == field {
          assert Delete(u, field) == Delete(tail, field);
          assert Unselected(rules, sel + [field]) == Unselected(rest, sel + [field]);
        } else {
          assert Delete(u, field) == [e] + Delete(tail, field);
          assert Unselected(rules, sel + [field]) == [e] + Unselected(rest, sel + [field]);
        }
      }
    }
  }

  /** Deleting a field that has no rule changes nothing. */
  lemma {:induction false} DeleteAbsent(r: RuleStore, field: string)
    requires Get(r, field).None?
    ensures Delete(r, field) == r
    decreases |r|
  {
    if |r| > 0 {
      DeleteAbsent(r[1..], field);
      assert r == [r[0]] + r[1..];
    }
  }

  /** Looking up a field after removing the selected ones: nothing for a
      selected field, the old rule for any other. */
  lemma {:induction false} GetUnselected(rules: RuleStore, sel: seq<string>, g: string)
    ensures Get(Unselected(rules, sel), g) == if g in sel then None else Get(rules, g)
    decreases |rules|
  {
    if |rules| > 0 {
      var e := rules[0];
      var tail := Unselected(rules[1..], sel);
      GetUnselected(rules[1..], sel, g);
      if e.field in sel {
        assert Unselected(rules, sel) == tail;
        if g == e.field {
          assert Get(rules, g) == Some(e.rule);
        } else {
          assert Get(rules, g) == Get(rules[1..], g);
        }
      } else {
        var u := [e] + tail;
        assert Unselected(rules, sel) == u;
        assert u[0] == e && u[1..] == tail;
        if g == e.field {
          assert Get(u, g) == Some(e.rule);
          assert Get(rules, g) == Some(e.rule);
        } else {
          assert Get(u, g) == Get(tail, g);
          assert Get(rules, g) == Get(rules[1..], g);
        }
      }
    }
  }

  /** Removing entries from a store without repeated fields leaves one. */
  lemma {:induction false} UnselectedDistinct(rules: RuleStore, sel: seq<string>)
    requires Distinct(rules)
    ensures Distinct(Unselected(rules, sel))
    ensures forall e :: e in Unselected(rules, sel) ==> e in rules
    decreases |rules|
  {
    if |rules| > 0 {
      var e := rules[0];
      var tail := Unselected(rules[1..], sel);
      DistinctTail(rules);
      UnselectedDistinct(rules[1..], sel);
      if e.field !in sel {
        var u := [e] + tail;
        assert Unselected(rules, sel) == u;
        forall i, j | 0 <= i < j < |u|
          ensures u[i].field != u[j].field
        {
          if i == 0 {
            assert u[j] == tail[j - 1] && u[j] in rules[1..];
          } else {
            assert u[i] == tail[i - 1] && u[j] == tail[j - 1];
          }
        }
      }
    }
  }

  /** One pass of the `del` loop: deleting the next selected field when it has
      a rule, and doing nothing otherwise, removes one more field. */
  lemma RemoveStep(rules: RuleStore, selected: seq<string>, i: nat, r: RuleStore)
    requires i < |selected| && r == Unselected(rules, selected[..i])
    ensures Get(r, selected[i]).Some? ==> Delete(r, selected[i]) == Unselected(rules, selected[..i + 1])
    ensures Get(r, selected[i]).None? ==> r == Unselected(rules, selected[..i + 1])
  {
    assert selected[..i + 1] == selected[..i] + [selected[i]];
    UnselectedExtend(rules, selected[..i], selected[i]);
    if Get(r, selected[i]).None? {
      DeleteAbsent(r, selected[i]);
    }
  }

  /** `if field in self.masking_rules: del self.masking_rules[field]` for the
      next selected field. */
  method DeleteNext(rules: RuleStore, selected: seq<string>, i: nat, r: RuleStore) returns (r': RuleStore)
    requires i < |selected| && r == Unselected(rules, selected[..i])
    ensures r' == Unselected(rules, selected[..i + 1])
  {
    RemoveStep(rules, selected, i, r);
    if Get(r, selected[i]).Some? {
      r' := Delete(r, selected[i]);
    } else {
      r' := r;
    }
  }

  /** The `del` loop of `remove_masking_rule`: `del` only when the field has a rule. */
  method DeleteAll(rules: RuleStore, selected: seq<string>) returns (r: RuleStore)
    ensures r == Unselected(rules, selected)
  {
    UnselectedNone(rules);
    r := rules;
    var i := 0;
    while i < |selected|
      invariant 0 <= i <= |selected|
      invariant r == Unselected(rules, selected[..i])
    {
      r := DeleteNext(rules, selected, i, r);
      i := i + 1;
    }
    assert selected[..i] == selected;
  }

  /** `remove_masking_rule`: each selected field that has a rule loses it; the
      remaining rules keep their order. */
  method RemoveMaskingRule(rules: RuleStore, selected: seq<string>)
    returns (r: RuleStore, outcome: EditOutcome)
    ensures |selected| == 0 ==> r == rules && outcome == NothingSelected
    ensures |selected| > 0 ==> outcome == Applied
    // the surviving entries are those of unselected fields, in their old order
    ensures r == Unselected(rules, selected)
    ensures forall g :: Get(r, g) == if g in selected then None else Get(rules, g)
    ensures Distinct(rules) ==> Distinct(r)
  {
    if |selected| == 0 {
      UnselectedNone(rules);
      r, outcome := rules, NothingSelected;
    } else {
      r := DeleteAll(rules, selected);
      outcome := Applied;
    }
    if Distinct(rules) {
      UnselectedDistinct(rules, selected);
    }
    forall g
      ensures Get(r, g) == if g in selected then None else Get(rules, g)
    {
      GetUnselected(rules, selected, g);
    }
  }
}

=== FILE: pystr.dfy ===
/**
 The Python string primitives the masking code is written with: repetition
 (`c * n`), slicing with Python's index rules (`s[:k]`, `s[k:]`), lower-casing,
 substring and character search, and the digit filter.
 */
module PyStr {
  import opened Wrappers

  /** `c * n`: n copies of c, and the empty string when n is zero or negative. */
  function Repeat(c: char, n: int): (r: string)
    ensures |r| == if n <= 0 then 0 else n
    ensures forall i :: 0 <= i < |r| ==> r[i] == c
    decreases if n <= 0 then 0 else n
  {
    if n <= 0 then "" else [c] + Repeat(c, n - 1)
  }

  /** `'*' * n` */
  function Stars(n: int): string
  {
    Repeat('*', n)
  }

  predicate AllStars(s: string)
  {
    forall i :: 0 <= i < |s| ==> s[i] == '*'
  }

  /** Python's normalisation of a slice bound k against a sequence of length n:
      a negative bound counts from the end, and the result is clamped to [0, n]. */
  function SliceBound(k: int, n: nat): (b: nat)
    ensures b <= n
  {
    if k < 0 then (if n + k < 0 then 0 else n + k)
    else if k > n then n
    else k
  }

  /** `s[:k]` */
  function SliceTo(s: string, k: int): (r: string)
    ensures r <= s
    ensures 0 <= k <= |s| ==> r == s[..k]
  {
    s[..SliceBound(k, |s|)]
  }

  /** `s[k:]`; note that `s[-0:]` is `s[0:]`, the whole string. */
  function SliceFrom(s: string, k: int): (r: string)
    ensures |r| <= |s| && r == s[|s| - |r|..]
    ensures 0 <= k <= |s| ==> r == s[k..]
    ensures -|s| <= k < 0 ==> r == s[|s| + k..]
  {
    s[SliceBound(k, |s|)..]
  }

  /** Lower-casing of one character (ASCII letters only). */
  function LowerChar(c: char): char
  {
    if 'A' <= c <= 'Z' then (c as int + 32) as char else c
  }

  /** `s.lower()` restricted to ASCII letters. */
  function Lower(s: string): (r: string)
    ensures |r| == |s|
    ensures forall i :: 0 <= i < |s| ==> r[i] == LowerChar(s[i])
  {
    seq(|s|, i requires 0 <= i < |s| => LowerChar(s[i]))
  }

  /** Lower-casing twice is lower-casing once. */
  lemma LowerIdempotent(s: string)
    ensures Lower(Lower(s)) == Lower(s)
  {
  }

  /** `sub in s`, scanning s from the left. */
  predicate Contains(s: string, sub: string)
    decreases |s|
  {
    sub <= s || (|s| > 0 && Contains(s[1..], sub))
  }

  /** sub occurs in s starting at position i. */
  predicate OccursAt(s: string, sub: string, i: nat)
  {
    i + |sub| <= |s| && s[i..i + |sub|] == sub
  }

  /** An occurrence at any position is found by the scan. */
  lemma {:induction false} ContainsAt(s: string, sub: string, i: nat)
    requires OccursAt(s, sub, i)
    ensures Contains(s, sub)
    decreases i
  {
    if i == 0 {
      assert s[..|sub|] == sub;
    } else {
      assert s[1..][i - 1..i - 1 + |sub|] == s[i..i + |sub|];
      ContainsAt(s[1..], sub, i - 1);
    }
  }

  /** When the scan succeeds it has found an occurrence. */
  lemma {:induction false} ContainsWitness(s: string, sub: string) returns (i: nat)
    requires Contains(s, sub)
    ensures OccursAt(s, sub, i)
    decreases |s|
  {
    if sub <= s {
      i := 0;
    } else {
      var j := ContainsWitness(s[1..], sub);
      assert s[j + 1..j + 1 + |sub|] == s[1..][j..j + |sub|];
      i := j + 1;
    }
  }

  /** The scan finds sub exactly when sub occurs somewhere in s as a contiguous run. */
  lemma ContainsIff(s: string, sub: string)
    ensures Contains(s, sub) <==> exists i: nat :: OccursAt(s, sub, i)
  {
    if Contains(s, sub) {
      var i := ContainsWitness(s, sub);
    }
    forall i: nat | OccursAt(s, sub, i)
      ensures Contains(s, sub)
    {
      ContainsAt(s, sub, i);
    }
  }

  /** The position of the first occurrence of c in s, as `s.split(c, 1)` splits there. */
  function FirstIndex(s: string, c: char): (r: Option<nat>)
    ensures r.None? <==> c !in s
    ensures r.Some? ==> r.value < |s| && s[r.value] == c && c !in s[..r.value]
  {
    if |s| == 0 then None
    else if s[0] == c then Some(0)
    else match FirstIndex(s[1..], c)
      case None => None
      case Some(i) =>
        assert s[..i + 1] == [s[0]] + s[1..][..i];
        Some(i + 1)
  }

  /** The first occurrence is the position where c appears with no c before it. */
  lemma FirstIndexAt(s: string, c: char, i: nat)
    requires i < |s| && s[i] == c && c !in s[..i]
    ensures FirstIndex(s, c) == Some(i)
  {
  }

  predicate IsDigit(c: char)
  {
    '0' <= c <= '9'
  }

  /** `re.sub(r'\D', '', s)`: the digits of s, in their order in s. */
  function Digits(s: string): (d: string)
    ensures |d| <= |s|
    ensures forall i :: 0 <= i < |d| ==> IsDigit(d[i])
  {
    if |s| == 0 then ""
    else (if IsDigit(s[0]) then [s[0]] else "") + Digits(s[1..])
  }

  /** Every digit of s is kept, as often as it occurs in s; nothing else is. */
  lemma {:induction false} DigitsKeepsDigits(s: string)
    ensures forall c :: multiset(Digits(s))[c] == if IsDigit(c) then multiset(s)[c] else 0
    decreases |s|
  {
    if |s| > 0 {
      DigitsKeepsDigits(s[1..]);
      assert s == [s[0]] + s[1..];
    }
  }

  /** A single character survives exactly when it is a digit. */
  lemma DigitsOfChar(c: char)
    ensures Digits([c]) == if IsDigit(c) then [c] else ""
  {
    assert [c][1..] == "";
  }

  /** Removing non-digits distributes over concatenation. */
  lemma {:induction false} DigitsAppend(a: string, b: string)
    ensures Digits(a + b) == Digits(a) + Digits(b)
    decreases |a|
  {
    if |a| == 0 {
      assert a + b == b;
    } else {
      assert (a + b)[1..] == a[1..] + b;
      DigitsAppend(a[1..], b);
    }
  }
}

=== FILE: reverse_store.dfy ===
/**
 `reverse_mapping`: for each field, a map from the masked (encrypted) text to
 the original text, written by the two encryption strategies and only read
 when it is exported.
 */
module ReverseStore {
  import opened Wrappers

  type ReverseMap = map<string, map<string, string>>

  /** `reverse_mapping.get(field, {}).get(masked)` */
  function Lookup(rm: ReverseMap, field: string, masked: string): Option<string>
  {
    if field in rm && masked in rm[field] then Some(rm[field][masked]) else None
  }

  /** `if field not in rm: rm[field] = {}` followed by `rm[field][masked] = original`. */
  function Record(rm: ReverseMap, field: string, masked: string, original: string): (r: ReverseMap)
    ensures r.Keys == rm.Keys + {field}
    ensures forall g, k ::
      Lookup(r, g, k) == if g == field && k == masked then Some(original) else Lookup(rm, g, k)
    ensures forall g :: g in rm && g != field ==> r[g] == rm[g]
  {
    var inner := if field in rm then rm[field] else map[];
    rm[field := inner[masked := original]]
  }

  /** A second write of the same masked text replaces the first: last write wins. */
  lemma RecordLastWriteWins(rm: ReverseMap, field: string, masked: string, v1: string, v2: string)
    ensures Record(Record(rm, field, masked, v1), field, masked, v2) == Record(rm, field, masked, v2)
  {
    var a := Record(Record(rm, field, masked, v1), field, masked, v2);
    var b := Record(rm, field, masked, v2);
    assert a[field] == b[field];
  }

  /** Writes of different masked texts, or to different fields, commute. */
  lemma RecordCommutes(rm: ReverseMap, f1: string, k1: string, v1: string, f2: string, k2: string, v2: string)
    requires f1 != f2 || k1 != k2
    ensures Record(Record(rm, f1, k1, v1), f2, k2, v2) == Record(Record(rm, f2, k2, v2), f1, k1, v1)
  {
    var in1 := if f1 in rm then rm[f1] else map[];
    var in2 := if f2 in rm then rm[f2] else map[];
    if f1 == f2 {
      assert in1[k1 := v1][k2 := v2] == in1[k2 := v2][k1 := v1];
    } else {
      assert rm[f1 := in1[k1 := v1]][f2 := in2[k2 := v2]] == rm[f2 := in2[k2 := v2]][f1 := in1[k1 := v1]];
    }
  }
}

=== FILE: rules.dfy ===
/**
 Masking rules and the rule store. A rule is the pair {type, options} of the
 source: the type is kept as the label string it was stored with (imported
 rules may carry any string), and `StrategyOf` classifies a label. The store
 `masking_rules` is an insertion-ordered dictionary from field to rule,
 modelled as a sequence of entries.
 */
module Rules {
  import opened Wrappers

  /** The eleven masking types offered by the tool. */
  datatype Strategy =
    | FullMasking
    | PartialMasking
    | FormatPreservingEncryption
    | FakeDataReplacement
    | HashOneWay
    | ReversibleWithKey
    | EmailMasking
    | PhoneMasking
    | SsnMasking
    | DateShifting
    | NumberRandomization

  /** The label under which a strategy is offered and stored. */
  function Label(k: Strategy): string
  {
    match k
    case FullMasking => "Full Masking (****)"
    case PartialMasking => "Partial Masking"
    case FormatPreservingEncryption => "Format-Preserving Encryption"
    case FakeDataReplacement => "Fake Data Replacement"
    case HashOneWay => "Hash (One-way)"
    case ReversibleWithKey => "Reversible (with key)"
    case EmailMasking => "Email Masking"
    case PhoneMasking => "Phone Masking"
    case SsnMasking => "SSN Masking"
    case DateShifting => "Date Shifting"
    case NumberRandomization => "Number Randomization"
  }

  /** The branch of the dispatch a type string selects; None for a string that
      matches no branch. */
  function StrategyOf(t: string): (r: Option<Strategy>)
    ensures r.Some? ==> Label(r.value) == t
    ensures r.None? ==> forall k :: Label(k) != t
  {
    if t == "Full Masking (****)" then Some(FullMasking)
    else if t == "Partial Masking" then Some(PartialMasking)
    else if t == "Format-Preserving Encryption" then Some(FormatPreservingEncryption)
    else if t == "Fake Data Replacement" then Some(FakeDataReplacement)
    else if t == "Hash (One-way)" then Some(HashOneWay)
    else if t == "Reversible (with key)" then Some(ReversibleWithKey)
    else if t == "Email Masking" then Some(EmailMasking)
    else if t == "Phone Masking" then Some(PhoneMasking)
    else if t == "SSN Masking" then Some(SsnMasking)
    else if t == "Date Shifting" then Some(DateShifting)
    else if t == "Number Randomization" then Some(NumberRandomization)
    else None
  }

  /** Every label selects its own strategy, so no branch shadows another. */
  lemma LabelRoundTrip(k: Strategy)
    ensures StrategyOf(Label(k)) == Some(k)
  {
  }

  /** The options a rule may carry; absent keys are None. */
  datatype Options = Options(
    keepFirst: Option<int>,
    keepLast: Option<int>,
    key: Option<string>,
    shiftDays: Option<int>)

  const NoOptions := Options(None, None, None, None)

  datatype Rule = Rule(kind: string, options: Options)

  datatype Entry = Entry(field: string, rule: Rule)

  /** `masking_rules`: entries in insertion order. */
  type RuleStore = seq<Entry>

  /** The fields of a store, in iteration order. */
  function Fields(rs: RuleStore): (fs: seq<string>)
    ensures |fs| == |rs|
    ensures forall i :: 0 <= i < |rs| ==> fs[i] == rs[i].field
  {
    seq(|rs|, i requires 0 <= i < |rs| => rs[i].field)
  }

  /** No field has two entries, as in a dictionary. */
  ghost predicate Distinct(rs: RuleStore)
  {
    forall i, j :: 0 <= i < j < |rs| ==> rs[i].field != rs[j].field
  }

  /** In a store without repeated fields, an entry's field is named neither
      before nor after it. */
  lemma FieldNotElsewhere(rs: RuleStore, k: nat)
    requires Distinct(rs) && k < |rs|
    ensures rs[k].field !in Fields(rs[..k])
    ensures rs[k].field !in Fields(rs[k + 1..])
  {
    forall i | 0 <= i < k
      ensures rs[..k][i].field != rs[k].field
    {
    }
    var later := rs[k + 1..];
    forall i | 0 <= i < |later|
      ensures later[i].field != rs[k].field
    {
      assert later[i] == rs[k + 1 + i];
    }
  }

  /** The entries after the first of a store without repeated fields repeat
      no field, and none of them is the first entry's field. */
  lemma DistinctTail(rs: RuleStore)
    requires Distinct(rs) && |rs| > 0
    ensures Distinct(rs[1..])
    ensures forall i :: 0 <= i < |rs| - 1 ==> rs[1..][i].field != rs[0].field
  {
    forall i, j | 0 <= i < j < |rs| - 1
      ensures rs[1..][i].field != rs[1..][j].field
    {
      assert rs[1..][i] == rs[i + 1] && rs[1..][j] == rs[j + 1];
    }
    forall i | 0 <= i < |rs| - 1
      ensures rs[1..][i].field != rs[0].field
    {
      assert rs[1..][i] == rs[i + 1];
    }
  }

  /** `masking_rules.get(field)` */
  function Get(rs: RuleStore, field: string): (r: Option<Rule>)
    ensures r.None? <==> field !in Fields(rs)
    ensures r.Some? ==> Entry(field, r.value) in rs
  {
    if |rs| == 0 then None
    else if rs[0].field == field then Some(rs[0].rule)
    else
      assert Fields(rs) == [rs[0].field] + Fields(rs[1..]);
      Get(rs[1..], field)
  }

  /** In a store without repeated fields, the entry at position i is what Get finds. */
  lemma GetAt(rs: RuleStore, i: nat)
    requires Distinct(rs) && i < |rs|
    ensures Get(rs, rs[i].field) == Some(rs[i].rule)
  {
  }

  /** `masking_rules[field] = rule`: an existing entry is overwritten where it
      stands, a new field is appended at the end. */
  function Put(rs: RuleStore, field: string, rule: Rule): (r: RuleStore)
    ensures forall g :: Get(r, g) == if g == field then Some(rule) else Get(rs, g)
    ensures |r| == if field in Fields(rs) then |rs| else |rs| + 1
    ensures forall i :: 0 <= i < |rs| ==> r[i].field == rs[i].field
  {
    if |rs| == 0 then [Entry(field, rule)]
    else if rs[0].field == field then [Entry(field, rule)] + rs[1..]
    else
      assert Fields(rs) == [rs[0].field] + Fields(rs[1..]);
      [rs[0]] + Put(rs[1..], field, rule)
  }

  /** Overwriting keeps every field in its position; a new field comes last. */
  lemma {:induction false} PutFields(rs: RuleStore, field: string, rule: Rule)
    ensures field in Fields(rs) ==> Fields(Put(rs, field, rule)) == Fields(rs)
    ensures field !in Fields(rs) ==> Fields(Put(rs, field, rule)) == Fields(rs) + [field]
    decreases |rs|
  {
    var r := Put(rs, field, rule);
    if |rs| == 0 {
      assert Fields(r) == [field];
    } else {
      assert Fields(rs) == [rs[0].field] + Fields(rs[1..]);
      if rs[0].field == field {
        assert Fields(r) == Fields(rs);
      } else {
        PutFields(rs[1..], field, rule);
        assert Fields(r) == [rs[0].field] + Fields(Put(rs[1..], field, rule));
      }
    }
  }

  /** Putting a rule never creates a repeated field. */
  lemma PutDistinct(rs: RuleStore, field: string, rule: Rule)
    requires Distinct(rs)
    ensures Distinct(Put(rs, field, rule))
  {
    var r := Put(rs, field, rule);
    PutFields(rs, field, rule);
    assert forall i :: 0 <= i < |r| ==> Fields(r)[i] == r[i].field;
  }

  /** `del masking_rules[field]`: the entries for field are dropped, the others
      keep their order. */
  function Delete(rs: RuleStore, field: string): (r: RuleStore)
    ensures forall g :: Get(r, g) == if g == field then None else Get(rs, g)
    ensures forall e :: e in r <==> e in rs && e.field != field
    ensures Distinct(rs) ==> Distinct(r)
  {
    if |rs| == 0 then []
    else if rs[0].field == field then Delete(rs[1..], field)
    else [rs[0]] + Delete(rs[1..], field)
  }

  /** Deletion works entry by entry, so the surviving entries keep their
      relative order. */
  lemma {:induction false} DeleteAppend(a: RuleStore, b: RuleStore, field: string)
    ensures Delete(a + b, field) == Delete(a, field) + Delete(b, field)
    decreases |a|
  {
    if |a| == 0 {
      assert a + b == b;
    } else {
      assert (a + b)[1..] == a[1..] + b;
      DeleteAppend(a[1..], b, field);
    }
  }
}

=== FILE: value_masks.dfy ===
/**
 The string strategies of `mask_value`, each a total function of the value's
 text `str(value)`: full masking, partial masking, e-mail, phone and SSN
 masking, and the truncated SHA-256 hex digest.
 */
module ValueMasks {
  import opened Wrappers
  import opened PyStr
  import opened Externals

  /** "Full Masking (****)": one star per character. */
  function FullMask(s: string): (r: string)
    ensures |r| == |s| && AllStars(r)
  {
    Stars(|s|)
  }

  /** "Partial Masking", written with Python's slice rules so that every pair of
      integer options behaves as the source does. */
  function PartialMask(s: string, keepFirst: int, keepLast: int): (r: string)
    // too short for the kept ends: all stars, same length
    ensures |s| <= keepFirst + keepLast ==> |r| == |s| && AllStars(r)
    // both ends kept, the middle starred, same length
    ensures 0 <= keepFirst && 1 <= keepLast && keepFirst + keepLast < |s| ==>
      && |r| == |s|
      && forall i :: 0 <= i < |s| ==>
           r[i] == (if i < keepFirst || |s| - keepLast <= i then s[i] else '*')
    // keep_last == 0: `s[-0:]` is the whole value, which is appended in full
    ensures 0 <= keepFirst < |s| && keepLast == 0 ==>
      && |r| == 2 * |s|
      && r[|s|..] == s
      && forall i :: 0 <= i < |s| ==> r[i] == (if i < keepFirst then s[i] else '*')
  {
    if |s| <= keepFirst + keepLast then Stars(|s|)
    else SliceTo(s, keepFirst) + Stars(|s| - keepFirst - keepLast) + SliceFrom(s, -keepLast)
  }

  /** "Email Masking": split at the first '@'; a local part longer than two
      characters keeps its first and last character, a shorter one is starred;
      the '@' and the domain are kept. Without '@' the value is fully masked. */
  function EmailMask(s: string): (r: string)
    ensures |r| == |s|
    ensures '@' !in s ==> AllStars(r)
    ensures FirstIndex(s, '@').Some? ==>
      var at := FirstIndex(s, '@').value;
      && r[at..] == s[at..]
      && (at > 2 ==> r[0] == s[0] && r[at - 1] == s[at - 1] && AllStars(r[1..at - 1]))
      && (at <= 2 ==> AllStars(r[..at]))
  {
    match FirstIndex(s, '@')
    case None => Stars(|s|)
    case Some(at) =>
      var local := s[..at];
      var maskedLocal :=
        if |local| > 2 then [local[0]] + Stars(|local| - 2) + [local[|local| - 1]]
        else Stars(|local|);
      assert s[at..] == "@" + s[at + 1..];
      maskedLocal + "@" + s[at + 1..]
  }

  /** "Phone Masking": with at least four digits, stars then the last four
      characters (whatever they are); otherwise full masking. */
  function PhoneMask(s: string): (r: string)
    ensures |r| == |s|
    ensures 4 <= |Digits(s)| ==> AllStars(r[..|s| - 4]) && r[|s| - 4..] == s[|s| - 4..]
    ensures |Digits(s)| < 4 ==> AllStars(r)
  {
    if |Digits(s)| >= 4 then Stars(|s| - 4) + SliceFrom(s, -4)
    else Stars(|s|)
  }

  /** "SSN Masking": with at least four digits, the fixed prefix "***-**-"
      followed by the last four digits; otherwise full masking. */
  function SsnMask(s: string): (r: string)
    ensures 4 <= |Digits(s)| ==>
      var d := Digits(s);
      && |r| == 11
      && r[..7] == "***-**-"
      && r[7..] == d[|d| - 4..]
      && forall i :: 7 <= i < 11 ==> IsDigit(r[i])
    ensures |Digits(s)| < 4 ==> |r| == |s| && AllStars(r)
  {
    var d := Digits(s);
    if |d| >= 4 then "***-**-" + SliceFrom(d, -4)
    else Stars(|s|)
  }

  const HexAlphabet: string := "0123456789abcdef"

  /** Two lower-case hex characters of one byte, high nibble first. */
  function HexByte(b: Byte): (r: string)
    ensures |r| == 2
  {
    [HexAlphabet[b / 16], HexAlphabet[b % 16]]
  }

  /** `hexdigest()`: the lower-case hex rendering of a byte sequence. */
  function HexDigest(d: seq<Byte>): (h: string)
    ensures |h| == 2 * |d|
    ensures forall i :: 0 <= i < |h| ==> h[i] in HexAlphabet
  {
    if |d| == 0 then "" else HexByte(d[0]) + HexDigest(d[1..])
  }

  /** Hex rendering is byte by byte. */
  lemma {:induction false} HexDigestAppend(a: seq<Byte>, b: seq<Byte>)
    ensures HexDigest(a + b) == HexDigest(a) + HexDigest(b)
    decreases |a|
  {
    if |a| == 0 {
      assert a + b == b;
    } else {
      assert (a + b)[1..] == a[1..] + b;
      HexDigestAppend(a[1..], b);
    }
  }

  /** Distinct bytes render to distinct hex pairs. */
  lemma HexByteInjective(x: Byte, y: Byte)
    requires HexByte(x) == HexByte(y)
    ensures x == y
  {
    assert HexByte(x)[0] == HexByte(y)[0] && HexByte(x)[1] == HexByte(y)[1];
    assert x / 16 == y / 16 && x % 16 == y % 16;
  }

  /** Hex rendering of equally long byte sequences is injective. */
  lemma {:induction false} HexDigestInjective(a: seq<Byte>, b: seq<Byte>)
    requires |a| == |b|
    requires HexDigest(a) == HexDigest(b)
    ensures a == b
    decreases |a|
  {
    if |a| > 0 {
      var ha := HexDigest(a);
      assert ha[..2] == HexByte(a[0]) && ha[2..] == HexDigest(a[1..]);
      assert HexDigest(b)[..2] == HexByte(b[0]) && HexDigest(b)[2..] == HexDigest(b[1..]);
      HexByteInjective(a[0], b[0]);
      HexDigestInjective(a[1..], b[1..]);
      assert a == [a[0]] + a[1..] && b == [b[0]] + b[1..];
    }
  }

  /** "Hash (One-way)": `sha256(...).hexdigest()[:16]`, the hex of the first
      eight digest bytes. */
  function HashMask(d: Digest): (r: string)
    ensures |r| == 16
    ensures r == HexDigest(d[..8])
    ensures forall i :: 0 <= i < 16 ==> r[i] in HexAlphabet
  {
    HexDigestAppend(d[..8], d[8..]);
    assert d == d[..8] + d[8..];
    SliceTo(HexDigest(d), 16)
  }

  /** Two digests give the same masked value exactly when their first eight
      bytes agree. */
  lemma HashMaskCollision(d1: Digest, d2: Digest)
    ensures HashMask(d1) == HashMask(d2) <==> d1[..8] == d2[..8]
  {
    if HashMask(d1) == HashMask(d2) {
      HexDigestInjective(d1[..8], d2[..8]);
    }
  }

  /** E-mail masking of a value written as local part, '@', domain, with no '@'
      in the local part: the masked local part, then '@' and the domain as they were. */
  lemma EmailMaskSplit(local: string, domain: string)
    requires '@' !in local
    ensures EmailMask(local + "@" + domain) ==
      (if |local| > 2 then [local[0]] + Stars(|local| - 2) + [local[|local| - 1]]
       else Stars(|local|)) + "@" + domain
  {
    var s := local + "@" + domain;
    FirstIndexAt(s, '@', |local|);
    assert s[..|local|] == local;
    assert s[|local| + 1..] == domain;
  }

  /** Worked example: a formatted phone number keeps its last four characters. */
  lemma PhoneExample()
    ensures PhoneMask("555-123-4567") == "********4567"
  {
  }
}

=== FILE: wrappers.dfy ===
/** Option and Result, used for missing values, missing options and raised exceptions. */
module Wrappers {

  /** A value that may be absent: a pandas NA cell, an option key not present in a rule. */
  datatype Option<+T> = None | Some(value: T)

  /** The outcome of a computation that may raise. */
  datatype Result<+T, +E> = Success(value: T) | Failure(error: E)
}
